=== FILE: README.md ===
# create-onchain-agent: route selection and project materialisation

A Dafny model of the core of the TypeScript `create-onchain-agent` scaffolder.
That core is three things:

- the static compatibility tables of `constants.ts`;
- the resolution and materialisation performed by `handleSelection` in `utils.ts`;
- the small string helpers of `utils.ts`.

The modules follow the program's structure:

| module | file | contents |
|---|---|---|
| `Types` | `types.dfy` | networks, network families, wallet providers, route configurations |
| `Constants` | `constants.dfy` | the network sets, the provider lists, `NetworkToWalletProviders`, `Networks`, `WalletProviderChoices`, the partial map `WalletProviderRouteConfigurations` |
| `Resolution` | `resolution.dfy` | `getNetworkFamily`, `getWalletProviders`, and the checks `handleSelection` makes before its first file-system call |
| `EnvFile` | `envfile.dfy` | the exact text written to `.env.local` |
| `FileSystem` | `filesystem.dfy` | an abstract file tree with `writeFile`, `readdir`, `rm` (`force`, `recursive`) and `rename` |
| `Materialise` | `materialise.dfy` | `handleSelection` as a pure transformer of a file tree: write the env file, promote the template, prune the others, remove the family directories |
| `PackageName` | `packagename.dfy` | `isValidPackageName` and `toValidPackageName` |
| `PackageManager` | `packagemanager.dfy` | `detectPackageManager`, with the user agent passed in |
| `Seqs`, `Wrappers` | `seqs.dfy`, `wrappers.dfy` | JavaScript sequence built-ins (`new Set` order, `join`, string spread, `split`), and `Option`/`Result` |

Some choices in how the JavaScript is modelled:

- A file tree maps paths (segment sequences below the project root) to `File(content)` or `Dir`.
- Every `fs` call returns either a new tree or the POSIX error it raises.
- `handleSelection` returns `Done(tree)`, or `Failed(reason, tree)` with the tree as the awaited steps left it. The code does no rollback, so a late failure keeps the earlier writes.
- An optional `network` is `Present`, `Undefined` or `Null`. The command-line front end passes `null` when the user picks "other" and enters a chain id.
- A chain id is an `Option<string>`, and only a non-empty one is truthy.

## Model

| member | source | states |
|---|---|---|
| Types.NetworkIdInjective | typescript/create-onchain-agent/src/types.ts:1-15 | distinct networks have distinct string names, so set membership by name is membership by network |
| Constants.NetworkSetsPartition | typescript/create-onchain-agent/src/constants.ts:9-26 | the EVM set has 10 names and the SVM set 3; both are duplicate-free, disjoint and cover every network; each holds exactly the networks of its declared union type |
| Constants.ProviderListsAndDefaults | typescript/create-onchain-agent/src/constants.ts:28-46 | every network's provider list is non-empty and is one of the three declared lists; its default (first entry) is CDP, Viem or SolanaKeypair accordingly, and the list matches the network's family |
| Constants.RouteMapDomain | typescript/create-onchain-agent/src/constants.ts:58-137 | the route map is partial: EVM defines exactly CDP, Viem and Privy; SVM defines exactly SolanaKeypair and Privy |
| Constants.LookupEntry | typescript/create-onchain-agent/src/constants.ts:58-61 | looking a provider up in a record is defined iff the record has an entry for it, and then yields that entry's configuration |
| Constants.PromptedSelectionsResolve | typescript/create-onchain-agent/src/constants.ts:32-137 | every provider listed for a network has a configuration in that network's family, so a prompted selection never hits the invalid-combination error |
| Constants.ChainIdProvidersResolve | typescript/create-onchain-agent/src/constants.ts:30-103 | every non-CDP EVM provider has an EVM configuration |
| Constants.ConfiguredRoutesArePruned | typescript/create-onchain-agent/src/constants.ts:58-137 | every defined configuration is among those the pruning loop visits; its template path has three segments and starts with its family's directory |
| Constants.RouteValues | typescript/create-onchain-agent/src/utils.ts:221-222 | `Object.values` of a family's record has one value per key, in declaration order; each is the configuration that looking that key up yields, and every configuration the record defines is among them |
| Constants.AllRouteConfigurationsValue | typescript/create-onchain-agent/src/utils.ts:221-223 | the flattened, filtered values of the route map are the five configurations, EVM first, each family in declaration order |
| Constants.ApiRoutesDistinct | typescript/create-onchain-agent/src/constants.ts:69-134 | the five template paths are pairwise distinct and no two share a directory; each has three segments and starts with `evm` for EVM entries and `svm` for SVM entries |
| Constants.NetworksListing | typescript/create-onchain-agent/src/constants.ts:48 | `Networks` lists the ten EVM names in insertion order and then the three SVM names, each network once, with base-sepolia at index 5 |
| Constants.WalletProviderChoicesValue | typescript/create-onchain-agent/src/constants.ts:50-56 | the de-duplicated concatenation of the provider lists is `[CDP, Viem, Privy, SolanaKeypair]` and has no duplicates |
| Constants.RequiredKeysIncludeCdp | typescript/create-onchain-agent/src/constants.ts:62-137 | every configuration requires both `CDP_API_KEY_NAME=` and `CDP_API_KEY_PRIVATE_KEY=` |
| Constants.ConfiguredTextIsSingleLine | typescript/create-onchain-agent/src/constants.ts:62-137 | no configured comment or key contains a newline |
| Seqs.Dedupe | typescript/create-onchain-agent/src/constants.ts:51-55 | spreading a `Set` built from a sequence gives each element once, and exactly the elements of the input |
| Seqs.DedupeKeepsFirstOccurrenceOrder | typescript/create-onchain-agent/src/constants.ts:50-56 | a `Set` iterates in insertion order: the de-duplicated elements appear in the order of their first occurrences in the input |
| Seqs.DedupeOfDistinct | typescript/create-onchain-agent/src/constants.ts:48 | a `Set` built from a duplicate-free sequence iterates in the original order |
| Seqs.Chars | typescript/create-onchain-agent/src/utils.ts:197-212 | spreading a string gives one-character strings, and writing them one after another writes that string |
| Resolution.GetNetworkFamily | typescript/create-onchain-agent/src/utils.ts:18-24 | EVM iff the network is in the EVM set, SVM iff it is outside it and in the SVM set; for every network the family is defined and is the one its union type declares, so `undefined` never comes back |
| Resolution.GetWalletProviders | typescript/create-onchain-agent/src/utils.ts:148-153 | with no network: `[Viem, Privy]`. Otherwise, by family and CDP support: `[SolanaKeypair, Privy]` on Solana, `[CDP, Viem, Privy]` on the five CDP-supported EVM networks, `[Viem, Privy]` on the rest. The default is CDP iff the network is CDP-supported, and every entry resolves |
| Resolution.SelectedFamily | typescript/create-onchain-agent/src/utils.ts:180-187 | fails with the unsupported-network error iff there is neither a network nor a truthy chain id; otherwise the network's family, or EVM on the chain-id path |
| Resolution.Resolve | typescript/create-onchain-agent/src/utils.ts:180-193 | unsupported iff there is neither a network nor a truthy chain id; the unrecognised-network outcome never occurs; success iff the route map defines the (family, provider) pair, and then the result is that configuration |
| Resolution.OfferedProvidersResolve | typescript/create-onchain-agent/src/utils.ts:189-193 | any provider offered for a chosen network resolves, in that network's family |
| Resolution.ChainIdSelectionsResolve | typescript/create-onchain-agent/src/utils.ts:183-193 | with only a truthy chain id, every offered provider resolves in the EVM family |
| Resolution.CrossFamilyProviderRefused | typescript/create-onchain-agent/src/utils.ts:189-193 | SolanaKeypair on an EVM network, and CDP or Viem on a Solana network, are refused as an invalid combination |
| Resolution.ChainIdPathRefusals | typescript/create-onchain-agent/src/utils.ts:181-193 | chain id "1" with SolanaKeypair is an invalid combination; an empty chain id, or none, is the unsupported-network error |
| EnvFile.CommentLines | typescript/create-onchain-agent/src/utils.ts:199-204 | the header has one line per note, each starting with `#`; they are single lines exactly when the notes are |
| EnvFile.LayoutIsSingleLine | typescript/create-onchain-agent/src/utils.ts:196-210 | when no configured string and not the network text holds a newline, no line of the layout does |
| EnvFile.EnvFileTextSections | typescript/create-onchain-agent/src/utils.ts:196-212 | the file holds the joined header, `\n\n# Required\n`, the joined required keys after `OPENAI_API_KEY=`, `\n\n# Optional\n`, and the joined optional keys after `NETWORK_ID=<network>`, with nothing else |
| EnvFile.EnvFileTextLayout | typescript/create-onchain-agent/src/utils.ts:196-212 | the file is the layout's lines joined by single newlines: a blank line before each heading, no trailing newline |
| EnvFile.EnvFileReadsBack | typescript/create-onchain-agent/src/utils.ts:196-212 | when no configured string holds a newline, splitting the file at newlines gives back exactly the layout's lines |
| FileSystem.Stat | typescript/create-onchain-agent/src/utils.ts:227-233 | path resolution finds an entry's node, reports a missing entry inside an existing directory as missing, and the root is a directory |
| FileSystem.WriteFile | typescript/create-onchain-agent/src/utils.ts:212 | succeeds iff the parent directory exists and the path is not a directory; the file then holds exactly the new content, whatever it held before, and no other entry changes |
| FileSystem.Readdir | typescript/create-onchain-agent/src/utils.ts:231 | succeeds iff the path is a directory, listing exactly the names directly inside it; a missing path is `ENOENT` |
| FileSystem.Rm | typescript/create-onchain-agent/src/utils.ts:227 | removes the path and everything below it and nothing else; a missing path is not an error and leaves the tree unchanged; it can fail only when a file stands where a directory is needed |
| FileSystem.Rename | typescript/create-onchain-agent/src/utils.ts:218 | a missing source is `ENOENT`; on success the destination holds the source's subtree, nothing remains below the source, and entries outside both paths are unchanged; a file moved onto a non-directory inside an existing directory always succeeds |
| FileSystem.EmptyDirHoldsNothing | typescript/create-onchain-agent/src/utils.ts:231-233 | a directory whose listing is empty has no entries below it, so removing it after an empty `readdir` deletes only the directory |
| FileSystem.RenameChecksSuffice | typescript/create-onchain-agent/src/utils.ts:218 | the checks made before a move leave source and destination unrelated by prefix |
| Materialise.NetworkIdText | typescript/create-onchain-agent/src/utils.ts:210 | the network part of `NETWORK_ID=` is a single line, and it is the text `undefined` or `null` iff no network was given |
| Materialise.NetworkIdLine | typescript/create-onchain-agent/src/utils.ts:209-210 | the layout's `NETWORK_ID=` line reads `NETWORK_ID=undefined` when no network was passed, `NETWORK_ID=null` when `null` was passed, and `NETWORK_ID=` followed by the identifier (`base-sepolia` for Base Sepolia) otherwise |
| Materialise.PruneRoute | typescript/create-onchain-agent/src/utils.ts:226-234 | one pruning step removes only entries, changing none. It keeps every entry that is neither inside the route nor the route's directory itself, so the route's siblings survive. On success nothing remains under the route, and the directory survives iff it held something besides the route. It fails iff that directory is not an existing directory; a missing one fails with `ENOENT` and an unchanged tree |
| Materialise.Prune | typescript/create-onchain-agent/src/utils.ts:225-235 | the pruning loop only removes entries. It keeps everything outside the routes' directories, and every entry that is inside no route and is no route's directory, even when the loop stops early. When it finishes, nothing remains under any route |
| Materialise.PruneSucceeds | typescript/create-onchain-agent/src/utils.ts:225-235 | the loop finishes when every route's directory exists and none lies inside an earlier route's directory, whether or not the route files themselves exist |
| Materialise.RemoveFamilyDirs | typescript/create-onchain-agent/src/utils.ts:236-237 | the final two removals delete exactly the `evm` and `svm` subtrees, and cannot fail while the agent directory exists |
| Materialise.Cleanup | typescript/create-onchain-agent/src/utils.ts:221-237 | pruning and the final removals only remove entries; when they finish, no `evm` or `svm` entry remains and every other entry is kept |
| Materialise.CleanupSucceeds | typescript/create-onchain-agent/src/utils.ts:221-237 | the clean-up finishes when the agent directory and every route's directory exist |
| Materialise.PrunedRoutesShape | typescript/create-onchain-agent/src/utils.ts:221-224 | the loop visits five template paths, each a file two levels below `evm` or `svm`, no two sharing a directory |
| Materialise.FixedPathsOutsideFamilies | typescript/create-onchain-agent/src/utils.ts:196-216 | `.env.local` and `route.ts` lie outside every template and both family directories, so pruning never deletes `route.ts` |
| Materialise.ApplyDone | typescript/create-onchain-agent/src/utils.ts:212-237 | after a finished run `.env.local` holds the text, `route.ts` holds what the template held, no `evm` or `svm` entry remains, and every other entry is unchanged |
| Materialise.ApplySucceeds | typescript/create-onchain-agent/src/utils.ts:212-237 | the run finishes when the template and every pruned route are present and neither `.env.local` nor `route.ts` is a directory |
| Materialise.ApplyAgainFails | typescript/create-onchain-agent/src/utils.ts:212-218 | running again over a finished tree rewrites `.env.local` and then fails at the rename with `ENOENT` for the template; nothing else changes |
| Materialise.HandleSelection | typescript/create-onchain-agent/src/utils.ts:172-238 | a refused selection fails with its reason before any file-system call, leaving the tree as it was; a finished run implies the selection resolved |
| Materialise.RefusedSelectionsLeaveTree | typescript/create-onchain-agent/src/utils.ts:181-193 | no network and no chain id, an empty chain id, and SolanaKeypair with only a chain id each fail with their error and an unchanged tree |
| Materialise.SelectedTemplateInFamily | typescript/create-onchain-agent/src/utils.ts:214-224 | the selected template is a file two levels below its family directory and is among the pruned routes |
| Materialise.HandleSelectionDone | typescript/create-onchain-agent/src/utils.ts:195-237 | after a finished run: `.env.local` holds the generated text; `route.ts` holds exactly what the selected template held; no template of either family and no `evm` or `svm` entry remains; every other entry is unchanged |
| Materialise.TemplatesInFamilies | typescript/create-onchain-agent/src/constants.ts:69-134 | every configured template lies inside the `evm` or `svm` directory |
| Materialise.ScaffoldSucceeds | typescript/create-onchain-agent/src/utils.ts:195-237 | on a freshly copied template every selection that resolves runs to completion |
| Materialise.FreshTemplateInPlace | typescript/create-onchain-agent/src/utils.ts:214-224 | a tree of just the five route templates and the directories above them meets the run's requirements: every template is a file, and neither `.env.local` nor `route.ts` exists |
| Materialise.FreshTemplateRunFinishes | typescript/create-onchain-agent/src/utils.ts:172-237 | on that freshly copied template, the CDP wallet on Base Sepolia runs to completion, so the requirements of the run-level lemmas can be met |
| Materialise.SecondRunFails | typescript/create-onchain-agent/src/utils.ts:212-218 | a second run over a finished tree rewrites `.env.local` with its own text, then fails at the rename with `ENOENT` for its template; nothing else changes |
| Materialise.EnvFileOfRunReadsBack | typescript/create-onchain-agent/src/utils.ts:196-212 | the `.env.local` a finished run leaves reads back, line by line, as the layout |
| Materialise.RunRecordsNetworkId | typescript/create-onchain-agent/src/utils.ts:172-212 | after a finished run `.env.local` has the line `NETWORK_ID=undefined` when no network was passed, `NETWORK_ID=null` when `null` was passed, and `NETWORK_ID=` followed by the identifier when a network was chosen |
| PackageName.IsValidPackageName | typescript/create-onchain-agent/src/utils.ts:94-96 | accepts exactly the strings the anchored pattern `^(?:@scope/)?name$` matches, read declaratively with the scope ending at any slash |
| PackageName.ScopedNameAccepted | typescript/create-onchain-agent/src/utils.ts:94-96 | `@scope/name` is accepted whenever the scope and the name are |
| PackageName.RejectedExamples | typescript/create-onchain-agent/src/utils.ts:94-96 | an empty scope (`@/agentkit`), a scope without a name (`@scope/`) and an upper-case name are rejected |
| PackageName.Trim | typescript/create-onchain-agent/src/utils.ts:106 | the result neither starts nor ends with whitespace; it is empty iff the input is all whitespace; an input without whitespace is unchanged |
| PackageName.TrimIsInfix | typescript/create-onchain-agent/src/utils.ts:106 | the input is whitespace, then the trimmed string, then whitespace |
| PackageName.TrimKeeps | typescript/create-onchain-agent/src/utils.ts:106 | every character that is not whitespace survives trimming |
| PackageName.ToLower | typescript/create-onchain-agent/src/utils.ts:107 | the result holds no ASCII capital; on input without the Kelvin sign or the dotted capital I it has the input's length and maps each capital to its small letter and keeps every other character in place |
| PackageName.LowerKeeps | typescript/create-onchain-agent/src/utils.ts:107 | every character that is not a capital, the Kelvin sign or the dotted capital I survives lower-casing |
| PackageName.LowerKeepsNameChars | typescript/create-onchain-agent/src/utils.ts:107 | lower-casing leaves a string of `[a-z0-9~-]` characters unchanged |
| PackageName.ReplaceRuns | typescript/create-onchain-agent/src/utils.ts:108-110 | replacing runs removes every matching character (when `-` does not match) and adds only hyphens; a string without matches is unchanged |
| PackageName.KeptOutsideRuns | typescript/create-onchain-agent/src/utils.ts:108-110 | every character outside the replaced class survives the replacement |
| PackageName.ReplaceRunsOneHyphenPerRun | typescript/create-onchain-agent/src/utils.ts:108-110 | the replacement agrees with a character-at-a-time reading: each maximal run becomes exactly one `-`, and the characters between runs are kept in order |
| PackageName.ToValidPackageName | typescript/create-onchain-agent/src/utils.ts:104-111 | the output contains only `a-z`, digits, `-` and `~` |
| PackageName.SanitisedNamesAreValid | typescript/create-onchain-agent/src/utils.ts:98-111 | every non-empty output of the sanitiser is a bare name the validator accepts |
| PackageName.SanitiseKeepsNames | typescript/create-onchain-agent/src/utils.ts:104-111 | a name made only of `a-z`, digits, `-` and `~` comes back unchanged |
| PackageName.SanitiseKeepsNameChars | typescript/create-onchain-agent/src/utils.ts:104-111 | every character of the project name that is allowed in a name survives sanitising, so the output is empty only when the input had none |
| PackageName.SanitiseIdempotent | typescript/create-onchain-agent/src/utils.ts:104-111 | sanitising a sanitised name changes nothing |
| PackageName.SanitiserCanReturnInvalid | typescript/create-onchain-agent/src/utils.ts:98-111 | `.` and whitespace-only names sanitise to the empty string, which the validator rejects |
| PackageManager.DetectPackageManager | typescript/create-onchain-agent/src/utils.ts:121-137 | the answer is one of npm, yarn, pnpm, bun. It is yarn, pnpm or bun iff the user agent starts with that name. Otherwise it is npm, including for an absent or empty user agent |
| PackageManager.PrefixesExclusive | typescript/create-onchain-agent/src/utils.ts:121-137 | at most one of the four prefixes matches, so the order of the tests never decides the answer |
| PackageManager.DetectionExamples | typescript/create-onchain-agent/src/utils.ts:121-137 | a pnpm user agent gives pnpm, an npm one gives npm, and an empty or absent one gives npm |

## Notes on the code

- Network identifier on the chain-id path: the `NETWORK_ID=` line interpolates `${network}` (`utils.ts:210`). With no network it therefore writes the text `undefined`. The command-line front end passes `null` for the "other" choice (`cli.ts:79`), so it writes `null` there. The model follows the code (`Materialise.NetworkIdText`, `Materialise.RunRecordsNetworkId`).
- Sanitiser validity: the doc comment of `toValidPackageName` calls its output valid. That holds only for non-empty output (`PackageName.SanitisedNamesAreValid`); `.` or a blank name gives the empty string (`PackageName.SanitiserCanReturnInvalid`). The front end uses the output only as the initial answer of a prompt that validates it again, so this is not a fault of the program.

## Left out

- `optimizedCopy`, `copyDir` and `copyFile` (real file I/O with parallel fan-out): the copied project tree is the initial tree given to `Materialise.HandleSelection`.
- `createClickableLink`: terminal escape formatting with nothing to prove.
- The interactive prompts, spinner and console output of the command-line front end, in TypeScript and in Python. Only the values they pass are modelled, as parameters. The Python front end's separate network table is not used by this core.
- The SPL action provider, its schema and the Privy wallet-provider factory: they call SDKs that are not part of this model.
- File permissions, symbolic links, timestamps and concurrent modification of the tree.
- Resolution.Resolve: the unrecognised-network outcome is kept as an error value. The source would instead index the route map with `undefined` and raise a `TypeError`. No network reaches this branch (`Resolution.GetNetworkFamily`).
- PackageName.ToLower: only the characters whose lower-case form contains an ASCII letter are mapped: A-Z, the Kelvin sign to `k`, and the dotted capital I to `i` followed by a combining dot. Every other character is kept as is. Whatever `toLowerCase` makes of those other characters is again outside `[a-z0-9~-]`, and not whitespace, `.` or `_`, so the sanitiser's output is the same.
- PackageName: characters are Unicode scalar values, not UTF-16 code units. A supplementary character is one disallowed character here and two in JavaScript; either way its run becomes a single hyphen, and the validation pattern rejects both.
- PackageManager.DetectPackageManager: reading `process.env.npm_config_user_agent` is replaced by the parameter `userAgent`.

=== FILE: constants.dfy ===
/** The static compatibility tables of the scaffolder. */
module Constants {
  import opened Wrappers
  import opened Seqs
  import opened Types

  /** The EVM network set, in insertion order. */
  const EvmNetworks: seq<Network> := [
    EthereumMainnet, EthereumSepolia, PolygonMainnet, PolygonMumbai, BaseMainnet,
    BaseSepolia, ArbitrumMainnet, ArbitrumSepolia, OptimismMainnet, OptimismSepolia
  ]

  /** The Solana network set, in insertion order. */
  const SvmNetworks: seq<Network> := [SolanaMainnet, SolanaDevnet, SolanaTestnet]

  const CdpSupportedEvmWalletProviders: seq<WalletProvider> := [CDP, Viem, Privy]
  const SvmWalletProviders: seq<WalletProvider> := [SolanaKeypair, Privy]
  const NonCdpSupportedEvmWalletProviders: seq<WalletProvider> := [Viem, Privy]

  /** The providers offered for each network; the first is the default. */
  function NetworkToWalletProviders(n: Network): seq<WalletProvider> {
    match n
    case ArbitrumMainnet => CdpSupportedEvmWalletProviders
    case ArbitrumSepolia => NonCdpSupportedEvmWalletProviders
    case BaseMainnet => CdpSupportedEvmWalletProviders
    case BaseSepolia => CdpSupportedEvmWalletProviders
    case EthereumMainnet => CdpSupportedEvmWalletProviders
    case EthereumSepolia => NonCdpSupportedEvmWalletProviders
    case OptimismMainnet => NonCdpSupportedEvmWalletProviders
    case OptimismSepolia => NonCdpSupportedEvmWalletProviders
    case PolygonMainnet => CdpSupportedEvmWalletProviders
    case PolygonMumbai => NonCdpSupportedEvmWalletProviders
    case SolanaMainnet => SvmWalletProviders
    case SolanaDevnet => SvmWalletProviders
    case SolanaTestnet => SvmWalletProviders
  }

  /** Every network, as offered by the network prompt. */
  const Networks: seq<Network> := EvmNetworks + SvmNetworks

  /** Every wallet provider, each once, in order of first mention. */
  const WalletProviderChoices: seq<WalletProvider> :=
    Dedupe(CdpSupportedEvmWalletProviders + NonCdpSupportedEvmWalletProviders + SvmWalletProviders)

  /** The header comment pointing at the site where a key is obtained. */
  function KeysNote(site: string, url: string): string {
    "Get keys from " + site + ": " + url
  }

  /** The header comment asking for a wallet's exported private key. */
  function ExportKeyNote(chain: string): string {
    "Export private key from your " + chain + " wallet and save"
  }

  const CdpPortalNote := KeysNote("CDP Portal", "https://portal.cdp.coinbase.com/")
  const PrivyDashboardNote := KeysNote("Privy Dashboard", "https://dashboard.privy.io/")

  const EvmCdpRoute := RouteConfiguration(
    EnvTemplate([CdpPortalNote], ["CDP_API_KEY_NAME=", "CDP_API_KEY_PRIVATE_KEY="], []),
    ["evm", "cdp", "route.ts"])

  const EvmViemRoute := RouteConfiguration(
    EnvTemplate(
      [ExportKeyNote("Ethereum"), CdpPortalNote],
      ["PRIVATE_KEY=", "CDP_API_KEY_NAME=", "CDP_API_KEY_PRIVATE_KEY="],
      []),
    ["evm", "viem", "route.ts"])

  const EvmPrivyRoute := RouteConfiguration(
    EnvTemplate(
      [PrivyDashboardNote, CdpPortalNote],
      ["PRIVY_APP_ID=", "PRIVY_APP_SECRET=", "CDP_API_KEY_NAME=", "CDP_API_KEY_PRIVATE_KEY="],
      ["CHAIN_ID=", "PRIVY_WALLET_ID=", "PRIVY_WALLET_AUTHORIZATION_PRIVATE_KEY=",
       "PRIVY_WALLET_AUTHORIZATION_KEY_ID="]),
    ["evm", "privy", "route.ts"])

  const SvmKeypairRoute := RouteConfiguration(
    EnvTemplate(
      [ExportKeyNote("Solana"), CdpPortalNote],
      ["SOLANA_PRIVATE_KEY=", "CDP_API_KEY_NAME=", "CDP_API_KEY_PRIVATE_KEY="],
      ["SOLANA_RPC_URL="]),
    ["svm", "solanaKeypair", "route.ts"])

  const SvmPrivyRoute := RouteConfiguration(
    EnvTemplate(
      [PrivyDashboardNote, CdpPortalNote],
      ["PRIVY_APP_ID=", "PRIVY_APP_SECRET=", "CDP_API_KEY_NAME=", "CDP_API_KEY_PRIVATE_KEY="],
      ["PRIVY_WALLET_ID=", "PRIVY_WALLET_AUTHORIZATION_PRIVATE_KEY=",
       "PRIVY_WALLET_AUTHORIZATION_KEY_ID="]),
    ["svm", "privy", "route.ts"])

  /** One family's record of route configurations, entries in declaration order. */
  function RouteEntries(f: Family): seq<(WalletProvider, RouteConfiguration)> {
    match f
    case EVM => [(CDP, EvmCdpRoute), (Viem, EvmViemRoute), (Privy, EvmPrivyRoute)]
    case SVM => [(SolanaKeypair, SvmKeypairRoute), (Privy, SvmPrivyRoute)]
  }

  /** The configuration stored under key `p` in a record, or `None` when the record has no such key. */
  function LookupEntry(entries: seq<(WalletProvider, RouteConfiguration)>, p: WalletProvider): (r: Option<RouteConfiguration>)
    ensures r.Some? <==> exists i | 0 <= i < |entries| :: entries[i].0 == p
    ensures r.Some? ==> exists i | 0 <= i < |entries| :: entries[i] == (p, r.value)
  {
    if |entries| == 0 then None
    else if entries[0].0 == p then Some(entries[0].1)
    else
      var r := LookupEntry(entries[1..], p);
      assert forall i | 1 <= i < |entries| :: entries[i] == entries[1..][i - 1];
      r
  }

  /** `WalletProviderRouteConfigurations[f][p]`, undefined for unsupported pairs. */
  function WalletProviderRouteConfigurations(f: Family, p: WalletProvider): Option<RouteConfiguration> {
    LookupEntry(RouteEntries(f), p)
  }

  /** `Object.values` of a family's record: one value per key, in declaration
      order, each the configuration that indexing the record by its key gives,
      and every configuration the record defines. */
  function RouteValues(f: Family): (r: seq<RouteConfiguration>)
    ensures |r| == |RouteEntries(f)|
    ensures forall i | 0 <= i < |r| :: WalletProviderRouteConfigurations(f, RouteEntries(f)[i].0) == Some(r[i])
    ensures forall p | WalletProviderRouteConfigurations(f, p).Some? :: WalletProviderRouteConfigurations(f, p).value in r
  {
    seq(|RouteEntries(f)|, i requires 0 <= i < |RouteEntries(f)| => RouteEntries(f)[i].1)
  }

  /** Every route configuration across both families, EVM first, each family in
      declaration order. The record holds no undefined values, so filtering out
      falsy entries removes nothing. */
  const AllRouteConfigurations: seq<RouteConfiguration> := RouteValues(EVM) + RouteValues(SVM)

  /** The two network sets are duplicate-free, disjoint, and together cover every
      network, each holding exactly the networks of its declared union. */
  lemma NetworkSetsPartition()
    ensures |EvmNetworks| == 10 && |SvmNetworks| == 3
    ensures NoDuplicates(EvmNetworks) && NoDuplicates(SvmNetworks)
    ensures forall n: Network :: n in EvmNetworks <==> DeclaredFamily(n) == EVM
    ensures forall n: Network :: n in SvmNetworks <==> DeclaredFamily(n) == SVM
    ensures forall n: Network :: n in EvmNetworks || n in SvmNetworks
    ensures forall n: Network :: !(n in EvmNetworks && n in SvmNetworks)
  {
  }

  /** Every network offers a non-empty provider list, which is one of the three
      declared lists; its first entry, the default, is CDP, Viem or SolanaKeypair
      accordingly, and the list belongs to the network's family. */
  lemma ProviderListsAndDefaults(n: Network)
    ensures |NetworkToWalletProviders(n)| > 0
    ensures || (NetworkToWalletProviders(n) == CdpSupportedEvmWalletProviders
                && NetworkToWalletProviders(n)[0] == CDP && DeclaredFamily(n) == EVM)
            || (NetworkToWalletProviders(n) == NonCdpSupportedEvmWalletProviders
                && NetworkToWalletProviders(n)[0] == Viem && DeclaredFamily(n) == EVM)
            || (NetworkToWalletProviders(n) == SvmWalletProviders
                && NetworkToWalletProviders(n)[0] == SolanaKeypair && DeclaredFamily(n) == SVM)
  {
  }

  /** The route map is partial: EVM defines exactly CDP, Viem and Privy, SVM
      exactly SolanaKeypair and Privy. */
  lemma RouteMapDomain(p: WalletProvider)
    ensures WalletProviderRouteConfigurations(EVM, p).Some? <==> p == CDP || p == Viem || p == Privy
    ensures WalletProviderRouteConfigurations(SVM, p).Some? <==> p == SolanaKeypair || p == Privy
  {
    assert RouteEntries(EVM)[0].0 == CDP && RouteEntries(EVM)[1].0 == Viem && RouteEntries(EVM)[2].0 == Privy;
    assert RouteEntries(SVM)[0].0 == SolanaKeypair && RouteEntries(SVM)[1].0 == Privy;
  }

  /** Any provider the prompt offers for a network has a configuration in that
      network's family, so a prompted selection never hits the
      invalid-combination error. */
  lemma PromptedSelectionsResolve(n: Network, p: WalletProvider)
    requires p in NetworkToWalletProviders(n)
    ensures WalletProviderRouteConfigurations(DeclaredFamily(n), p).Some?
  {
    ProviderListsAndDefaults(n);
    RouteMapDomain(p);
  }

  /** Every provider offered on the chain-id path has an EVM configuration. */
  lemma ChainIdProvidersResolve(p: WalletProvider)
    requires p in NonCdpSupportedEvmWalletProviders
    ensures WalletProviderRouteConfigurations(EVM, p).Some?
  {
    RouteMapDomain(p);
  }

  /** The five configurations, in the order the pruning pass visits them. */
  lemma AllRouteConfigurationsValue()
    ensures AllRouteConfigurations == [EvmCdpRoute, EvmViemRoute, EvmPrivyRoute, SvmKeypairRoute, SvmPrivyRoute]
  {
  }

  /** Every defined pair's configuration is among those the pruning pass visits,
      and its template lies two levels below the directory named after its family. */
  lemma ConfiguredRoutesArePruned(f: Family, p: WalletProvider)
    requires WalletProviderRouteConfigurations(f, p).Some?
    ensures WalletProviderRouteConfigurations(f, p).value in AllRouteConfigurations
    ensures |WalletProviderRouteConfigurations(f, p).value.apiRoute| == 3
    ensures WalletProviderRouteConfigurations(f, p).value.apiRoute[0] == (if f == EVM then "evm" else "svm")
  {
    AllRouteConfigurationsValue();
    RouteMapDomain(p);
    var entries := RouteEntries(f);
    if f == EVM {
      assert entries == [(CDP, EvmCdpRoute), (Viem, EvmViemRoute), (Privy, EvmPrivyRoute)];
    } else {
      assert entries == [(SolanaKeypair, SvmKeypairRoute), (Privy, SvmPrivyRoute)];
    }
  }

  /** The five template paths are pairwise distinct, each three segments long,
      starting with `evm` for EVM entries and `svm` for SVM entries, and no two
      share a parent directory. */
  lemma ApiRoutesDistinct()
    ensures forall i | 0 <= i < |AllRouteConfigurations| ::
      |AllRouteConfigurations[i].apiRoute| == 3
      && AllRouteConfigurations[i].apiRoute[0] == (if i < 3 then "evm" else "svm")
    ensures forall i, j | 0 <= i < j < |AllRouteConfigurations| ::
      || AllRouteConfigurations[i].apiRoute[0] != AllRouteConfigurations[j].apiRoute[0]
      || AllRouteConfigurations[i].apiRoute[1] != AllRouteConfigurations[j].apiRoute[1]
    ensures forall i, j | 0 <= i < j < |AllRouteConfigurations| ::
      AllRouteConfigurations[i].apiRoute != AllRouteConfigurations[j].apiRoute
  {
    AllRouteConfigurationsValue();
  }

  /** `Networks` lists the EVM names in insertion order, then the Solana names;
      it names every network once and contains base-sepolia. */
  lemma NetworksListing()
    ensures |Networks| == 13 && NoDuplicates(Networks)
    ensures forall i | 0 <= i < |Networks| :: DeclaredFamily(Networks[i]) == (if i < 10 then EVM else SVM)
    ensures forall n: Network :: n in Networks
    ensures Networks[5] == BaseSepolia
    ensures Dedupe(EvmNetworks) == EvmNetworks && Dedupe(SvmNetworks) == SvmNetworks
  {
    NetworkSetsPartition();
    DedupeOfDistinct(EvmNetworks);
    DedupeOfDistinct(SvmNetworks);
  }

  /** The first two steps of removing duplicates from the concatenated lists. */
  lemma ChoicesPrefixDedupe()
    ensures Dedupe([CDP, Viem, Privy] + [Viem] + [Privy]) == [CDP, Viem, Privy]
  {
    DedupeOfDistinct([CDP, Viem, Privy]);
    DedupeSnoc([CDP, Viem, Privy], Viem);
    DedupeSnoc([CDP, Viem, Privy] + [Viem], Privy);
  }

  /** The provider choices are duplicate-free and, in order, CDP, Viem, Privy, SolanaKeypair. */
  lemma WalletProviderChoicesValue()
    ensures WalletProviderChoices == [CDP, Viem, Privy, SolanaKeypair]
    ensures NoDuplicates(WalletProviderChoices)
  {
    var front := [CDP, Viem, Privy] + [Viem] + [Privy];
    assert CdpSupportedEvmWalletProviders + NonCdpSupportedEvmWalletProviders + SvmWalletProviders
      == front + [SolanaKeypair] + [Privy];
    ChoicesPrefixDedupe();
    DedupeSnoc(front, SolanaKeypair);
    DedupeSnoc(front + [SolanaKeypair], Privy);
  }

  /** Every route configuration requires both CDP API keys. */
  lemma RequiredKeysIncludeCdp()
    ensures forall c | c in AllRouteConfigurations ::
      "CDP_API_KEY_NAME=" in c.env.required && "CDP_API_KEY_PRIVATE_KEY=" in c.env.required
  {
    AllRouteConfigurationsValue();
  }

  predicate SingleLine(s: string) {
    '\n' !in s
  }

  predicate AllSingleLine(lines: seq<string>) {
    forall i | 0 <= i < |lines| :: SingleLine(lines[i])
  }

  predicate EnvSingleLine(env: EnvTemplate) {
    AllSingleLine(env.topComments) && AllSingleLine(env.required) && AllSingleLine(env.optional)
  }

  lemma CdpNoteIsSingleLine() ensures SingleLine(CdpPortalNote) {}
  lemma PrivyNoteIsSingleLine() ensures SingleLine(PrivyDashboardNote) {}
  lemma ExportNotesAreSingleLine() ensures SingleLine(ExportKeyNote("Ethereum")) && SingleLine(ExportKeyNote("Solana")) {}

  lemma EvmCdpIsSingleLine() ensures EnvSingleLine(EvmCdpRoute.env) { CdpNoteIsSingleLine(); }
  lemma EvmViemIsSingleLine() ensures EnvSingleLine(EvmViemRoute.env) { CdpNoteIsSingleLine(); ExportNotesAreSingleLine(); }
  lemma EvmPrivyIsSingleLine() ensures EnvSingleLine(EvmPrivyRoute.env) { CdpNoteIsSingleLine(); PrivyNoteIsSingleLine(); }
  lemma SvmKeypairIsSingleLine() ensures EnvSingleLine(SvmKeypairRoute.env) { CdpNoteIsSingleLine(); ExportNotesAreSingleLine(); }
  lemma SvmPrivyIsSingleLine() ensures EnvSingleLine(SvmPrivyRoute.env) { CdpNoteIsSingleLine(); PrivyNoteIsSingleLine(); }

  /** No configured comment, key or note spans more than one line. */
  lemma ConfiguredTextIsSingleLine(c: RouteConfiguration)
    requires c in AllRouteConfigurations
    ensures EnvSingleLine(c.env)
  {
    AllRouteConfigurationsValue();
    EvmCdpIsSingleLine();
    EvmViemIsSingleLine();
    EvmPrivyIsSingleLine();
    SvmKeypairIsSingleLine();
    SvmPrivyIsSingleLine();
  }
}

=== FILE: envfile.dfy ===
/** The text of the generated `.env.local` file. */
module EnvFile {
  import opened Seqs
  import opened Types
  import opened Constants

  const OpenAiKeyNote := KeysNote("OpenAI Platform", "https://platform.openai.com/api-keys")

  /** The header: one comment line per note. Every line starts with `#`, and
      the lines are single lines exactly when the notes are. */
  function CommentLines(notes: seq<string>): (r: seq<string>)
    ensures |r| == |notes|
    ensures forall i | 0 <= i < |r| :: |r[i]| > 0 && r[i][0] == '#'
    ensures AllSingleLine(r) <==> AllSingleLine(notes)
  {
    var r := seq(|notes|, i requires 0 <= i < |notes| => "# " + notes[i]);
    assert forall i | 0 <= i < |r| :: SingleLine(r[i]) <==> SingleLine(notes[i]) by {
      forall i | 0 <= i < |r| ensures SingleLine(r[i]) <==> SingleLine(notes[i]) {
        assert r[i] == "# " + notes[i];
      }
    }
    r
  }

  /** The array handed to `fs.writeFile`: the three joined sections, each
      spread into one-character strings, separated by the two section headings. */
  function EnvFragments(env: EnvTemplate, networkText: string): seq<string> {
    Chars(Join(CommentLines([OpenAiKeyNote] + env.topComments), "\n"))
    + ["\n\n# Required\n"]
    + Chars(Join(["OPENAI_API_KEY="] + env.required, "\n"))
    + ["\n\n# Optional\n"]
    + Chars(Join(["NETWORK_ID=" + networkText] + env.optional, "\n"))
  }

  /** The bytes `fs.writeFile` writes for that array. */
  function EnvFileText(env: EnvTemplate, networkText: string): string {
    Concat(EnvFragments(env, networkText))
  }

  /** The intended layout, line by line: the comment header, a blank line, the
      required section, a blank line, the optional section. */
  function EnvFileLines(env: EnvTemplate, networkText: string): seq<string> {
    CommentLines([OpenAiKeyNote] + env.topComments)
    + ["", "# Required", "OPENAI_API_KEY="] + env.required
    + ["", "# Optional", "NETWORK_ID=" + networkText] + env.optional
  }

  /** The optional section carries the `NETWORK_ID=` line with the given text. */
  lemma NetworkLineWritten(env: EnvTemplate, networkText: string)
    ensures "NETWORK_ID=" + networkText in EnvFileLines(env, networkText)
  {
    var head := CommentLines([OpenAiKeyNote] + env.topComments) + ["", "# Required", "OPENAI_API_KEY="] + env.required;
    assert EnvFileLines(env, networkText)[|head| + 2] == "NETWORK_ID=" + networkText;
  }

  /** A blank line and a heading line in front of a non-empty block. */
  lemma JoinHeadingFirst(heading: string, ys: seq<string>)
    requires |ys| > 0
    ensures Join(["", heading] + ys, "\n") == "" + "\n" + (heading + "\n" + Join(ys, "\n"))
  {
    var tail := ["", heading] + ys;
    assert tail[1..] == [heading] + ys;
    JoinCons(heading, ys, "\n");
  }

  /** Two joined blocks separated by a blank line and a heading line read as one join. */
  lemma JoinWithHeading(xs: seq<string>, heading: string, ys: seq<string>)
    requires |xs| > 0 && |ys| > 0
    ensures Join(xs, "\n") + ("\n\n" + heading + "\n") + Join(ys, "\n") == Join(xs + (["", heading] + ys), "\n")
  {
    var a, b := Join(xs, "\n"), Join(ys, "\n");
    assert a + "\n" + ("" + "\n" + (heading + "\n" + b)) == a + ("\n\n" + heading + "\n") + b;
    JoinAppend(xs, ["", heading] + ys, "\n");
    JoinHeadingFirst(heading, ys);
  }

  /** Writing the fragment array writes the three joined sections with the two headings between them. */
  lemma EnvFileTextSections(env: EnvTemplate, networkText: string)
    ensures EnvFileText(env, networkText)
      == Join(CommentLines([OpenAiKeyNote] + env.topComments), "\n")
         + "\n\n# Required\n" + Join(["OPENAI_API_KEY="] + env.required, "\n")
         + "\n\n# Optional\n" + Join(["NETWORK_ID=" + networkText] + env.optional, "\n")
  {
    var a := Join(CommentLines([OpenAiKeyNote] + env.topComments), "\n");
    var b := Join(["OPENAI_API_KEY="] + env.required, "\n");
    var c := Join(["NETWORK_ID=" + networkText] + env.optional, "\n");
    ConcatAppend(Chars(a) + ["\n\n# Required\n"] + Chars(b) + ["\n\n# Optional\n"], Chars(c));
    ConcatAppend(Chars(a) + ["\n\n# Required\n"] + Chars(b), ["\n\n# Optional\n"]);
    ConcatAppend(Chars(a) + ["\n\n# Required\n"], Chars(b));
    ConcatAppend(Chars(a), ["\n\n# Required\n"]);
    assert Concat(["\n\n# Required\n"]) == "\n\n# Required\n";
    assert Concat(["\n\n# Optional\n"]) == "\n\n# Optional\n";
  }

  /** The layout is the header, then the required block after a blank line and
      its heading, then the optional block likewise. */
  lemma LinesRegroup(env: EnvTemplate, networkText: string)
    ensures CommentLines([OpenAiKeyNote] + env.topComments)
            + (["", "# Required"] + (["OPENAI_API_KEY="] + env.required))
            + (["", "# Optional"] + (["NETWORK_ID=" + networkText] + env.optional))
            == EnvFileLines(env, networkText)
  {
  }

  /** Three joined blocks with the two headings between them read as the join
      of the blocks with a blank line and the heading line before the second
      and third. */
  lemma JoinSections(header: seq<string>, required: seq<string>, optional: seq<string>)
    requires |header| > 0 && |required| > 0 && |optional| > 0
    ensures Join(header, "\n") + "\n\n# Required\n" + Join(required, "\n") + "\n\n# Optional\n" + Join(optional, "\n")
      == Join(header + (["", "# Required"] + required) + (["", "# Optional"] + optional), "\n")
  {
    assert "\n\n# Required\n" == "\n\n" + "# Required" + "\n";
    assert "\n\n# Optional\n" == "\n\n" + "# Optional" + "\n";
    JoinWithHeading(header, "# Required", required);
    var upper := header + (["", "# Required"] + required);
    JoinWithHeading(upper, "# Optional", optional);
  }

  /** Writing the fragment array produces exactly the layout's lines joined by
      newlines: no trailing newline, no other separators. */
  lemma EnvFileTextLayout(env: EnvTemplate, networkText: string)
    ensures EnvFileText(env, networkText) == Join(EnvFileLines(env, networkText), "\n")
  {
    EnvFileTextSections(env, networkText);
    JoinSections(CommentLines([OpenAiKeyNote] + env.topComments),
      ["OPENAI_API_KEY="] + env.required, ["NETWORK_ID=" + networkText] + env.optional);
    LinesRegroup(env, networkText);
  }

  /** A concatenation of line lists is single-line exactly when both parts are. */
  lemma AllSingleLineAppend(a: seq<string>, b: seq<string>)
    ensures AllSingleLine(a + b) <==> AllSingleLine(a) && AllSingleLine(b)
  {
    assert forall i | 0 <= i < |a| :: (a + b)[i] == a[i];
    assert forall i | 0 <= i < |b| :: (a + b)[|a| + i] == b[i];
  }

  lemma OpenAiNoteIsSingleLine() ensures SingleLine(OpenAiKeyNote) {}

  /** The fixed lines of the two sections hold no newline. */
  lemma FixedLinesAreSingleLine(networkText: string)
    requires SingleLine(networkText)
    ensures AllSingleLine(["", "# Required", "OPENAI_API_KEY="])
    ensures AllSingleLine(["", "# Optional", "NETWORK_ID=" + networkText])
  {
    var line := "NETWORK_ID=" + networkText;
    assert forall i | 0 <= i < |line| :: line[i] == if i < 11 then "NETWORK_ID="[i] else networkText[i - 11];
  }

  /** No line of the layout contains a newline when no configured string does. */
  lemma LayoutIsSingleLine(env: EnvTemplate, networkText: string)
    requires EnvSingleLine(env) && SingleLine(networkText)
    ensures AllSingleLine(EnvFileLines(env, networkText))
  {
    OpenAiNoteIsSingleLine();
    AllSingleLineAppend([OpenAiKeyNote], env.topComments);
    var header := CommentLines([OpenAiKeyNote] + env.topComments);
    var requiredHead := ["", "# Required", "OPENAI_API_KEY="];
    var optionalHead := ["", "# Optional", "NETWORK_ID=" + networkText];
    FixedLinesAreSingleLine(networkText);
    AllSingleLineAppend(header, requiredHead);
    AllSingleLineAppend(header + requiredHead, env.required);
    AllSingleLineAppend(header + requiredHead + env.required, optionalHead);
    AllSingleLineAppend(header + requiredHead + env.required + optionalHead, env.optional);
  }

  /** When no configured string contains a newline, reading the file back line
      by line yields exactly the layout's lines. */
  lemma EnvFileReadsBack(env: EnvTemplate, networkText: string)
    requires EnvSingleLine(env) && SingleLine(networkText)
    ensures Split(EnvFileText(env, networkText), '\n') == EnvFileLines(env, networkText)
  {
    EnvFileTextLayout(env, networkText);
    LayoutIsSingleLine(env, networkText);
    SplitJoin(EnvFileLines(env, networkText), '\n');
  }
}

=== FILE: filesystem.dfy ===
/** An abstract file system and the four `fs/promises` calls the materialiser
    makes: `writeFile`, `rename`, `rm` with `{ recursive: true, force: true }`
    and `readdir`. A tree maps paths (segment sequences below the project root)
    to nodes; the root itself is an implicit directory. Permissions, links and
    timestamps are not modelled. */
module FileSystem {
  import opened Wrappers

  type Path = seq<string>

  datatype Node = File(content: string) | Dir

  /** `path.dirname`. */
  function Parent(p: Path): Path
    requires |p| > 0
  {
    p[..|p| - 1]
  }

  predicate IsPrefix(p: Path, q: Path) {
    |p| <= |q| && q[..|p|] == p
  }

  /** Every entry lies in a directory that is itself an entry, or in the root. */
  predicate WellFormed(m: map<Path, Node>) {
    && [] !in m
    && forall p | p in m && |p| > 1 :: Parent(p) in m && m[Parent(p)].Dir?
  }

  type Tree = m: map<Path, Node> | WellFormed(m) witness map[]

  datatype FsError =
    | NoEntry(path: Path)          // ENOENT
    | NotADirectory(path: Path)    // ENOTDIR
    | IsADirectory(path: Path)     // EISDIR
    | NotEmpty(path: Path)         // ENOTEMPTY
    | InvalidArgument(path: Path)  // EINVAL
    | Busy(path: Path)             // EBUSY

  /** What resolving a path finds: a node, nothing, or a file standing where
      the walk needed a directory. */
  datatype Lookup = Found(node: Node) | Missing | NotDir

  lemma PrefixOfParent(p: Path, q: Path)
    requires |q| > 0 && IsPrefix(p, Parent(q))
    ensures IsPrefix(p, q)
  {
    assert q[..|p|] == Parent(q)[..|p|];
  }

  lemma PrefixTransitive(a: Path, b: Path, c: Path)
    requires IsPrefix(a, b) && IsPrefix(b, c)
    ensures IsPrefix(a, c)
  {
    assert c[..|a|] == c[..|b|][..|a|];
  }

  /** Resolving a path component by component, as the kernel does. */
  function Stat(t: Tree, p: Path): (r: Lookup)
    ensures p == [] ==> r == Found(Dir)
    ensures r.Found? && p != [] ==> p in t && t[p] == r.node
    ensures p in t ==> r == Found(t[p])
    ensures p != [] && p !in t && (|p| == 1 || (Parent(p) in t && t[Parent(p)].Dir?)) ==> r == Missing
    decreases |p|
  {
    if p == [] then Found(Dir)
    else
      match Stat(t, Parent(p))
      case Found(Dir) => if p in t then Found(t[p]) else Missing
      case Found(File(_)) => NotDir
      case Missing => Missing
      case NotDir => NotDir
  }

  /** Below a path that does not exist, nothing exists. */
  lemma {:induction false} StatMissingExtends(t: Tree, p: Path, q: Path)
    requires Stat(t, p) == Missing && IsPrefix(p, q)
    ensures Stat(t, q) == Missing
    decreases |q|
  {
    if q != p {
      assert IsPrefix(p, Parent(q));
      StatMissingExtends(t, p, Parent(q));
    }
  }

  /** Every proper ancestor of an entry is a directory entry. */
  lemma {:induction false} AncestorIsDir(t: Tree, p: Path, q: Path)
    requires q in t && IsPrefix(p, q) && p != []
    ensures p in t
    ensures p != q ==> t[p].Dir?
    decreases |q|
  {
    if p != q {
      assert |q| > 1;
      assert IsPrefix(p, Parent(q));
      if p != Parent(q) {
        AncestorIsDir(t, p, Parent(q));
      }
    }
  }

  /** A directory with no names directly inside it has no entries below it. */
  lemma EmptyDirHoldsNothing(t: Tree, d: Path)
    requires forall c :: d + [c] !in t
    ensures forall q | q in t && IsPrefix(d, q) :: q == d
  {
    forall q | q in t && IsPrefix(d, q) ensures q == d {
      if q != d {
        var p := q[..|d| + 1];
        assert p == d + [q[|d|]];
        AncestorIsDir(t, p, q);
      }
    }
  }

  /** `fs.writeFile(p, content)`: creates the file, or truncates and rewrites it. */
  function WriteFile(t: Tree, p: Path, content: string): (r: Result<Tree, FsError>)
    ensures r.Ok? <==> p != [] && (|p| == 1 || (Parent(p) in t && t[Parent(p)].Dir?)) && !(p in t && t[p].Dir?)
    ensures r.Ok? ==> p in r.value && r.value[p] == File(content)
    ensures r.Ok? ==> forall q | q != p :: (q in r.value <==> q in t) && (q in t ==> r.value[q] == t[q])
  {
    if p == [] then Err(IsADirectory(p))
    else
      match Stat(t, Parent(p))
      case Found(Dir) =>
        if p in t && t[p].Dir? then Err(IsADirectory(p))
        else
          var m := t[p := File(content)];
          assert WellFormed(m) by {
            forall q | q in m && |q| > 1 ensures Parent(q) in m && m[Parent(q)].Dir? {
              if q != p {
                assert Parent(q) in t && t[Parent(q)].Dir?;
              }
            }
          }
          Ok(m)
      case Found(File(_)) => Err(NotADirectory(p))
      case NotDir => Err(NotADirectory(p))
      case Missing => Err(NoEntry(p))
  }

  /** The names directly inside `d`. */
  function Children(t: Tree, d: Path): (r: set<string>)
    ensures forall c :: c in r <==> d + [c] in t
  {
    var r := set q | q in t && |q| == |d| + 1 && q[..|d|] == d :: q[|d|];
    assert forall c :: d + [c] in t ==> c in r by {
      forall c | d + [c] in t ensures c in r {
        var q := d + [c];
        assert q[..|d|] == d && q[|d|] == c;
      }
    }
    assert forall c :: c in r ==> d + [c] in t by {
      forall c | c in r ensures d + [c] in t {
        var q :| q in t && |q| == |d| + 1 && q[..|d|] == d && q[|d|] == c;
        assert q == d + [c];
      }
    }
    r
  }

  /** `fs.readdir(d)`: the names of the entries directly inside a directory. */
  function Readdir(t: Tree, d: Path): (r: Result<set<string>, FsError>)
    ensures r.Ok? <==> d == [] || (d in t && t[d].Dir?)
    ensures r.Ok? ==> forall c :: c in r.value <==> d + [c] in t
    ensures Stat(t, d) == Missing ==> r == Err(NoEntry(d))
  {
    match Stat(t, d)
    case Found(Dir) => Ok(Children(t, d))
    case Found(File(_)) => Err(NotADirectory(d))
    case NotDir => Err(NotADirectory(d))
    case Missing => Err(NoEntry(d))
  }

  /** The tree without `p` and everything below it. */
  function RemoveSubtree(t: Tree, p: Path): (r: Tree)
    ensures forall q :: q in r <==> q in t && !IsPrefix(p, q)
    ensures forall q | q in r :: r[q] == t[q]
  {
    var m := map q | q in t && !IsPrefix(p, q) :: t[q];
    assert WellFormed(m) by {
      forall q | q in m && |q| > 1 ensures Parent(q) in m && m[Parent(q)].Dir? {
        if IsPrefix(p, Parent(q)) {
          PrefixOfParent(p, q);
        }
      }
    }
    m
  }

  /** `fs.rm(p, { recursive: true, force: true })`: removes `p` with everything
      below it; a missing path is not an error, but a file standing where the
      walk needs a directory is. */
  function Rm(t: Tree, p: Path): (r: Result<Tree, FsError>)
    ensures r.Ok? ==> forall q :: q in r.value <==> q in t && !IsPrefix(p, q)
    ensures r.Ok? ==> forall q | q in r.value :: r.value[q] == t[q]
    ensures r.Err? ==> r == Err(NotADirectory(p))
    ensures p == [] || |p| == 1 || (Parent(p) in t && t[Parent(p)].Dir?) ==> r.Ok?
    ensures Stat(t, p) == Missing ==> r == Ok(t)
  {
    match Stat(t, p)
    case Missing =>
      assert forall q | q in t :: !IsPrefix(p, q) by {
        forall q | q in t ensures !IsPrefix(p, q) {
          if IsPrefix(p, q) {
            AncestorIsDir(t, p, q);
          }
        }
      }
      Ok(t)
    case NotDir => Err(NotADirectory(p))
    case Found(_) => Ok(RemoveSubtree(t, p))
  }

  /** The entries outside both the source and the destination subtrees. */
  function Kept(t: Tree, src: Path, dst: Path): (r: map<Path, Node>)
    ensures forall q :: q in r <==> q in t && !IsPrefix(src, q) && !IsPrefix(dst, q)
    ensures forall q | q in r :: r[q] == t[q]
  {
    map q | q in t && !IsPrefix(src, q) && !IsPrefix(dst, q) :: t[q]
  }

  /** The entries of the source subtree, re-rooted at the destination. */
  function Carried(t: Tree, src: Path, dst: Path): (r: map<Path, Node>)
    ensures forall k | k in r :: IsPrefix(dst, k) && src + k[|dst|..] in t && r[k] == t[src + k[|dst|..]]
    ensures forall q | q in t && IsPrefix(src, q) :: dst + q[|src|..] in r && r[dst + q[|src|..]] == t[q]
  {
    var targets := set q | q in t && IsPrefix(src, q) :: dst + q[|src|..];
    var r := map k | k in targets && |dst| <= |k| && src + k[|dst|..] in t :: t[src + k[|dst|..]];
    assert forall q | q in t && IsPrefix(src, q) :: dst + q[|src|..] in r && r[dst + q[|src|..]] == t[q] by {
      forall q | q in t && IsPrefix(src, q) ensures dst + q[|src|..] in r && r[dst + q[|src|..]] == t[q] {
        var k := dst + q[|src|..];
        assert k in targets;
        assert k[|dst|..] == q[|src|..];
        assert src + k[|dst|..] == q;
      }
    }
    assert forall k | k in r :: IsPrefix(dst, k) by {
      forall k | k in r ensures IsPrefix(dst, k) {
        var q :| q in t && IsPrefix(src, q) && k == dst + q[|src|..];
        assert k[..|dst|] == dst;
      }
    }
    r
  }

  /** The tree with the subtree at `src` moved to `dst`, replacing whatever was at `dst`. */
  function Move(t: Tree, src: Path, dst: Path): map<Path, Node> {
    Kept(t, src, dst) + Carried(t, src, dst)
  }

  /** Two prefixes of one path are prefix-related. */
  lemma PrefixesComparable(a: Path, b: Path, q: Path)
    requires IsPrefix(a, q) && IsPrefix(b, q)
    ensures IsPrefix(a, b) || IsPrefix(b, a)
  {
    if |a| <= |b| {
      assert b[..|a|] == q[..|a|];
    } else {
      assert a[..|b|] == q[..|b|];
    }
  }

  /** The preconditions under which `Rename` moves a subtree. */
  predicate MovePre(t: Tree, src: Path, dst: Path) {
    && src != [] && dst != [] && src in t
    && !IsPrefix(src, dst) && !IsPrefix(dst, src)
    && (|dst| == 1 || (Parent(dst) in t && t[Parent(dst)].Dir?))
  }

  /** A move leaves nothing below the source. */
  lemma MoveDropsSource(t: Tree, src: Path, dst: Path)
    requires MovePre(t, src, dst)
    ensures forall q | IsPrefix(src, q) :: q !in Move(t, src, dst)
  {
    forall q | IsPrefix(src, q) ensures q !in Move(t, src, dst) {
      if q in Carried(t, src, dst) {
        PrefixesComparable(src, dst, q);
      }
    }
  }

  /** The destination's parent survives the move as a directory. */
  lemma DestinationParent(t: Tree, src: Path, dst: Path)
    requires MovePre(t, src, dst) && |dst| > 1
    ensures Parent(dst) in Move(t, src, dst) && Move(t, src, dst)[Parent(dst)].Dir?
  {
    var pd := Parent(dst);
    if IsPrefix(src, pd) { PrefixOfParent(src, dst); }
    assert pd in Kept(t, src, dst);
    assert pd !in Carried(t, src, dst);
  }

  /** Re-rooting commutes with taking the parent. */
  lemma ReRootParent(src: Path, dst: Path, k: Path)
    requires IsPrefix(dst, k) && |k| > |dst|
    ensures IsPrefix(src, Parent(src + k[|dst|..]))
    ensures Parent(k) == dst + Parent(src + k[|dst|..])[|src|..]
  {
    var q := src + k[|dst|..];
    var pq := Parent(q);
    assert pq[..|src|] == src;
    assert pq[|src|..] == k[|dst|..|k| - 1];
    assert Parent(k) == k[..|dst|] + k[|dst|..|k| - 1];
  }

  /** The parent of a carried entry other than the destination is carried as a directory. */
  lemma InnerParent(t: Tree, src: Path, dst: Path, k: Path)
    requires MovePre(t, src, dst)
    requires k in Carried(t, src, dst) && |k| > |dst|
    ensures Parent(k) in Move(t, src, dst) && Move(t, src, dst)[Parent(k)].Dir?
  {
    var q := src + k[|dst|..];
    assert q in t;
    ReRootParent(src, dst, k);
    var pq := Parent(q);
    AncestorIsDir(t, pq, q);
    assert Parent(k) == dst + pq[|src|..];
    assert Parent(k) in Carried(t, src, dst);
  }

  /** The parent of a kept entry is a directory of the moved tree. */
  lemma KeptParent(t: Tree, src: Path, dst: Path, k: Path)
    requires MovePre(t, src, dst)
    requires k in Kept(t, src, dst) && |k| > 1
    ensures Parent(k) in Move(t, src, dst) && Move(t, src, dst)[Parent(k)].Dir?
  {
    var pk := Parent(k);
    if IsPrefix(src, pk) { PrefixOfParent(src, k); }
    if IsPrefix(dst, pk) { PrefixOfParent(dst, k); }
    assert pk in Kept(t, src, dst);
    assert pk !in Carried(t, src, dst);
  }

  /** A move yields a well-formed tree. */
  lemma MoveWellFormed(t: Tree, src: Path, dst: Path)
    requires MovePre(t, src, dst)
    ensures WellFormed(Move(t, src, dst))
  {
    var m := Move(t, src, dst);
    forall k | k in m && |k| > 1 ensures Parent(k) in m && m[Parent(k)].Dir? {
      if k in Carried(t, src, dst) {
        if k == dst {
          DestinationParent(t, src, dst);
        } else {
          assert IsPrefix(dst, k);
          InnerParent(t, src, dst, k);
        }
      } else {
        KeptParent(t, src, dst, k);
      }
    }
    assert [] !in Kept(t, src, dst);
  }

  /** `fs.rename(src, dst)`, following rename(2): the source must exist and the
      destination's directory must exist; an existing destination is replaced
      when it is a file replaced by a file or an empty directory replaced by a
      directory. */
  function Rename(t: Tree, src: Path, dst: Path): (r: Result<Tree, FsError>)
    ensures r.Ok? ==> src in t
    ensures r.Ok? && src != dst ==>
      && dst in r.value && r.value[dst] == t[src]
      && (forall q | IsPrefix(src, q) :: q !in r.value)
      && (forall q | q in t && IsPrefix(src, q) :: dst + q[|src|..] in r.value && r.value[dst + q[|src|..]] == t[q])
      && (forall q | !IsPrefix(src, q) && !IsPrefix(dst, q) ::
            (q in r.value <==> q in t) && (q in t ==> r.value[q] == t[q]))
      && (forall q | q in r.value :: (q in t && !IsPrefix(src, q) && !IsPrefix(dst, q)) || IsPrefix(dst, q))
    ensures Stat(t, src) == Missing && src != [] && dst != [] ==> r == Err(NoEntry(src))
    ensures (&& src != [] && src in t && t[src].File? && src != dst && dst != []
             && (|dst| == 1 || (Parent(dst) in t && t[Parent(dst)].Dir?))
             && !(dst in t && t[dst].Dir?)) ==> r.Ok?
  {
    if src == [] then Err(Busy(src))
    else if dst == [] then Err(Busy(dst))
    else
      match Stat(t, src)
      case Missing => Err(NoEntry(src))
      case NotDir => Err(NotADirectory(src))
      case Found(node) =>
        match Stat(t, Parent(dst))
        case Missing => Err(NoEntry(dst))
        case NotDir => Err(NotADirectory(dst))
        case Found(File(_)) => Err(NotADirectory(dst))
        case Found(Dir) =>
          if src == dst then Ok(t)
          else if node.Dir? && IsPrefix(src, dst) then Err(InvalidArgument(dst))
          else if dst in t && node.File? && t[dst].Dir? then Err(IsADirectory(dst))
          else if dst in t && node.Dir? && t[dst].File? then Err(NotADirectory(dst))
          else if dst in t && node.Dir? && Children(t, dst) != {} then Err(NotEmpty(dst))
          else
            RenameChecksSuffice(t, src, dst);
            MoveWellFormed(t, src, dst);
            MoveDropsSource(t, src, dst);
            var m: Tree := Move(t, src, dst);
            assert src[|src|..] == [] && dst + [] == dst;
            Ok(m)
  }

  /** The checks `Rename` makes before moving leave the two paths unrelated. */
  lemma RenameChecksSuffice(t: Tree, src: Path, dst: Path)
    requires src != [] && dst != [] && src != dst && src in t
    requires |dst| == 1 || (Parent(dst) in t && t[Parent(dst)].Dir?)
    requires t[src].Dir? ==> !IsPrefix(src, dst)
    requires dst in t && t[src].File? ==> t[dst].File?
    requires dst in t && t[src].Dir? ==> t[dst].Dir? && Children(t, dst) == {}
    ensures !IsPrefix(src, dst) && !IsPrefix(dst, src)
  {
    if IsPrefix(src, dst) {
      assert t[src].File?;
      assert IsPrefix(src, Parent(dst)) by {
        assert |src| < |dst|;
        assert Parent(dst)[..|src|] == dst[..|src|];
      }
      assert |dst| > 1;
      AncestorIsDir(t, src, Parent(dst));
      assert false;
    }
    if IsPrefix(dst, src) {
      AncestorIsDir(t, dst, src);
      if t[src].File? {
        assert false;
      }
      var child := src[..|dst| + 1];
      assert IsPrefix(child, src);
      assert child == dst + [src[|dst|]];
      AncestorIsDir(t, child, src);
      assert false;
    }
  }
}

=== FILE: materialise.dfy ===
/** `handleSelection` after the route has been resolved: it writes
    `.env.local`, promotes the chosen route template to
    `app/api/agent/route.ts`, prunes every other template together with any
    directory that pruning leaves empty, and finally removes the `evm` and
    `svm` directories. Paths are relative to the project root. Each step is
    awaited in turn, so a failing step leaves the tree as the earlier steps
    made it. */
module Materialise {
  import opened Wrappers
  import opened Seqs
  import opened Types
  import opened Constants
  import opened FileSystem
  import opened EnvFile
  import opened Resolution

  const AgentDir: Path := ["app", "api", "agent"]
  const EnvPath: Path := [".env.local"]
  const RoutePath: Path := AgentDir + ["route.ts"]
  const EvmDir: Path := AgentDir + ["evm"]
  const SvmDir: Path := AgentDir + ["svm"]

  /** Where a configuration's route template sits in the copied template. */
  function RouteTemplate(c: RouteConfiguration): Path {
    AgentDir + c.apiRoute
  }

  /** The template paths of a list of configurations, in order. */
  function RouteTemplates(cs: seq<RouteConfiguration>): (r: seq<Path>)
    ensures |r| == |cs|
    ensures forall i | 0 <= i < |cs| :: r[i] == RouteTemplate(cs[i])
  {
    if |cs| == 0 then [] else [RouteTemplate(cs[0])] + RouteTemplates(cs[1..])
  }

  /** The template paths the pruning loop visits, in order. */
  const PrunedRoutes: seq<Path> := RouteTemplates(AllRouteConfigurations)

  /** `${network}` in the `NETWORK_ID=` line: the identifier, or the text of
      `undefined` or `null` on the chain-id path. */
  function NetworkIdText(network: Nullish<Network>): (r: string)
    ensures SingleLine(r)
    ensures network.Present? <==> r != "undefined" && r != "null"
  {
    match network
    case Present(n) => NetworkId(n)
    case Undefined => "undefined"
    case Null => "null"
  }

  /** A rejection by the resolution step, or the error of a file-system call. */
  datatype Failure = Refused(reason: SelectionError) | FsFailure(error: FsError)

  /** The tree after the run, and the error that stopped it, if any. */
  datatype Completion = Done(fs: Tree) | Failed(failure: Failure, fs: Tree)

  /** A route path and a child of its parent directory overlap exactly when the
      child is the route itself. */
  lemma RouteUnderParent(route: Path, c: string)
    requires |route| > 0
    ensures IsPrefix(route, Parent(route) + [c]) <==> c == route[|route| - 1]
  {
    if c == route[|route| - 1] {
      assert Parent(route) + [c] == route;
    }
  }

  /** One iteration of the pruning loop: remove the route, list its directory,
      and remove the directory when the listing is empty. */
  function PruneRoute(t: Tree, route: Path): (r: Completion)
    requires |route| > 0
    ensures forall q | q in r.fs :: q in t && r.fs[q] == t[q]
    ensures forall q | q in t && !IsPrefix(Parent(route), q) :: q in r.fs
    ensures forall q | q in t && !IsPrefix(route, q) && q != Parent(route) :: q in r.fs
    ensures r.Done? ==> forall q | q in r.fs :: !IsPrefix(route, q)
    ensures r.Done? && |route| > 1 ==>
      (Parent(route) in r.fs <==> Children(t, Parent(route)) - {route[|route| - 1]} != {})
    ensures r.Failed? <==> |route| > 1 && !(Parent(route) in t && t[Parent(route)].Dir?)
    ensures Stat(t, Parent(route)) == Missing ==> r == Failed(FsFailure(NoEntry(Parent(route))), t)
  {
    var dir := Parent(route);
    assert |route| > 1 && dir in t ==> dir !in t || !IsPrefix(route, dir);
    assert Stat(t, dir) == Missing ==> Stat(t, route) == Missing by {
      if Stat(t, dir) == Missing {
        assert IsPrefix(dir, route);
        StatMissingExtends(t, dir, route);
      }
    }
    match Rm(t, route)
    case Err(e) =>
      assert Stat(t, route) == NotDir;
      assert !(route in t);
      Failed(FsFailure(e), t)
    case Ok(t1) =>
      match Readdir(t1, dir)
      case Err(e) => Failed(FsFailure(e), t1)
      case Ok(names) =>
        assert forall c :: c in names <==> c in Children(t, dir) - {route[|route| - 1]} by {
          forall c ensures c in names <==> c in Children(t, dir) - {route[|route| - 1]} {
            RouteUnderParent(route, c);
          }
        }
        if names == {} then
          EmptyDirHoldsNothing(t1, dir);
          match Rm(t1, dir)
          case Err(e) => Failed(FsFailure(e), t1)
          case Ok(t2) =>
            assert forall q | q in t2 :: !IsPrefix(route, q) by {
              forall q | q in t2 ensures !IsPrefix(route, q) {
                assert q in t1;
              }
            }
            Done(t2)
        else Done(t1)
  }

  /** A key outside the directories of all the given routes. */
  predicate Untouched(routes: seq<Path>, q: Path)
    requires forall i | 0 <= i < |routes| :: |routes[i]| > 0
  {
    forall i | 0 <= i < |routes| :: !IsPrefix(Parent(routes[i]), q)
  }

  /** A key that is neither inside any of the given routes nor one of their
      directories: the loop never removes it. */
  predicate Spared(routes: seq<Path>, q: Path)
    requires forall i | 0 <= i < |routes| :: |routes[i]| > 0
  {
    forall i | 0 <= i < |routes| :: !IsPrefix(routes[i], q) && q != Parent(routes[i])
  }

  /** The pruning loop over a list of route paths. */
  function Prune(t: Tree, routes: seq<Path>): (r: Completion)
    requires forall i | 0 <= i < |routes| :: |routes[i]| > 0
    ensures forall q | q in r.fs :: q in t && r.fs[q] == t[q]
    ensures forall q | q in t && Untouched(routes, q) :: q in r.fs
    ensures forall q | q in t && Spared(routes, q) :: q in r.fs
    ensures r.Done? ==> forall i, q | 0 <= i < |routes| && q in r.fs :: !IsPrefix(routes[i], q)
    decreases |routes|
  {
    if |routes| == 0 then Done(t)
    else
      match PruneRoute(t, routes[0])
      case Failed(e, t1) => Failed(e, t1)
      case Done(t1) =>
        var rest := routes[1..];
        assert forall i | 0 <= i < |rest| :: rest[i] == routes[i + 1];
        var r := Prune(t1, rest);
        assert forall q | q in t && Untouched(routes, q) :: Untouched(rest, q) && q in t1 by {
          forall q | q in t && Untouched(routes, q) ensures Untouched(rest, q) && q in t1 {
            assert !IsPrefix(Parent(routes[0]), q);
          }
        }
        assert forall q | q in t && Spared(routes, q) :: Spared(rest, q) && q in t1 by {
          forall q | q in t && Spared(routes, q) ensures Spared(rest, q) && q in t1 {
            assert !IsPrefix(routes[0], q) && q != Parent(routes[0]);
          }
        }
        r
  }

  /** The pruning loop finishes when every route's directory exists and no
      route's directory lies inside the directory of a route visited earlier. */
  lemma {:induction false} PruneSucceeds(t: Tree, routes: seq<Path>)
    requires forall i | 0 <= i < |routes| :: |routes[i]| > 1 && Parent(routes[i]) in t && t[Parent(routes[i])].Dir?
    requires forall i, j | 0 <= i < j < |routes| :: !IsPrefix(Parent(routes[i]), Parent(routes[j]))
    ensures Prune(t, routes).Done?
    decreases |routes|
  {
    if |routes| > 0 {
      var t1 := PruneRoute(t, routes[0]).fs;
      var rest := routes[1..];
      assert forall i | 0 <= i < |rest| :: rest[i] == routes[i + 1];
      assert forall i | 0 <= i < |rest| :: Parent(rest[i]) in t1 by {
        forall i | 0 <= i < |rest| ensures Parent(rest[i]) in t1 {
          assert !IsPrefix(Parent(routes[0]), Parent(routes[i + 1]));
        }
      }
      PruneSucceeds(t1, rest);
    }
  }

  /** A three-segment template sits two levels below its family directory. */
  lemma TemplateParent(c: RouteConfiguration)
    requires |c.apiRoute| == 3
    ensures |RouteTemplate(c)| == 6
    ensures Parent(RouteTemplate(c)) == AgentDir + [c.apiRoute[0], c.apiRoute[1]]
    ensures IsPrefix(AgentDir + [c.apiRoute[0]], Parent(RouteTemplate(c)))
  {
    assert Parent(RouteTemplate(c)) == AgentDir + [c.apiRoute[0], c.apiRoute[1]];
    assert Parent(RouteTemplate(c))[..4] == AgentDir + [c.apiRoute[0]];
  }

  /** A route path shaped like the configured ones: a file two levels below
      the `evm` or `svm` directory. */
  predicate TemplateShape(route: Path) {
    |route| == 6 && (IsPrefix(EvmDir, Parent(route)) || IsPrefix(SvmDir, Parent(route)))
  }

  /** A path inside a family directory starts with the agent directory and the family's name. */
  lemma InsideFamily(q: Path)
    requires IsPrefix(EvmDir, q) || IsPrefix(SvmDir, q)
    ensures |q| >= 4 && q[..3] == AgentDir && (q[3] == "evm" || q[3] == "svm")
    ensures IsPrefix(AgentDir, q) && !IsPrefix(RoutePath, q)
  {
    if IsPrefix(EvmDir, q) {
      assert q[..4] == EvmDir;
      assert q[..3] == q[..4][..3];
    } else {
      assert q[..4] == SvmDir;
      assert q[..3] == q[..4][..3];
    }
  }

  /** Route paths that all have the template shape. */
  predicate FamilyRoutes(routes: seq<Path>) {
    forall i | 0 <= i < |routes| :: TemplateShape(routes[i])
  }

  /** The five visited templates lie two levels below the `evm` or `svm`
      directory and no two share a directory. */
  lemma PrunedRoutesShape()
    ensures |PrunedRoutes| == 5
    ensures forall i | 0 <= i < |PrunedRoutes| :: |PrunedRoutes[i]| == 6
    ensures FamilyRoutes(PrunedRoutes)
    ensures forall i, j | 0 <= i < j < |PrunedRoutes| :: !IsPrefix(Parent(PrunedRoutes[i]), Parent(PrunedRoutes[j]))
  {
    AllRouteConfigurationsValue();
    ApiRoutesDistinct();
    var cs := AllRouteConfigurations;
    forall i | 0 <= i < |PrunedRoutes|
      ensures |PrunedRoutes[i]| == 6 && (IsPrefix(EvmDir, Parent(PrunedRoutes[i])) || IsPrefix(SvmDir, Parent(PrunedRoutes[i])))
    {
      TemplateParent(cs[i]);
    }
    forall i, j | 0 <= i < j < |PrunedRoutes| ensures !IsPrefix(Parent(PrunedRoutes[i]), Parent(PrunedRoutes[j])) {
      TemplateParent(cs[i]);
      TemplateParent(cs[j]);
      var a := Parent(PrunedRoutes[i]);
      var b := Parent(PrunedRoutes[j]);
      assert a[3] != b[3] || a[4] != b[4];
    }
  }

  /** Keys outside the `evm` and `svm` directories are outside the directory of
      every such route. */
  lemma OutsideFamiliesIsUntouched(routes: seq<Path>, q: Path)
    requires FamilyRoutes(routes)
    requires !IsPrefix(EvmDir, q) && !IsPrefix(SvmDir, q)
    ensures Untouched(routes, q)
  {
    forall i | 0 <= i < |routes| ensures !IsPrefix(Parent(routes[i]), q) {
      if IsPrefix(Parent(routes[i]), q) {
        if IsPrefix(EvmDir, Parent(routes[i])) {
          PrefixTransitive(EvmDir, Parent(routes[i]), q);
        } else {
          PrefixTransitive(SvmDir, Parent(routes[i]), q);
        }
      }
    }
  }

  /** The two final calls, `rm` of the `evm` directory and then of the `svm` one. */
  function RemoveFamilyDirs(t: Tree): (r: Result<Tree, FsError>)
    ensures r.Ok? ==> forall q | q in r.value :: q in t && r.value[q] == t[q] && !IsPrefix(EvmDir, q) && !IsPrefix(SvmDir, q)
    ensures r.Ok? ==> forall q | q in t && !IsPrefix(EvmDir, q) && !IsPrefix(SvmDir, q) :: q in r.value
    ensures AgentDir in t && t[AgentDir].Dir? ==> r.Ok?
  {
    assert Parent(EvmDir) == AgentDir && Parent(SvmDir) == AgentDir;
    match Rm(t, EvmDir)
    case Err(e) => Err(e)
    case Ok(t1) =>
      assert !IsPrefix(EvmDir, AgentDir);
      Rm(t1, SvmDir)
  }

  /** The clean-up after the promotion: the pruning loop over `routes`, then
      removal of the family directories. When it finishes, exactly the two
      family directories are gone. */
  function Cleanup(t: Tree, routes: seq<Path>): (r: Completion)
    requires FamilyRoutes(routes)
    ensures forall q | q in r.fs :: q in t && r.fs[q] == t[q]
    ensures r.Done? ==> forall q | q in r.fs :: !IsPrefix(EvmDir, q) && !IsPrefix(SvmDir, q)
    ensures r.Done? ==> forall q | q in t && !IsPrefix(EvmDir, q) && !IsPrefix(SvmDir, q) :: q in r.fs
  {
    match Prune(t, routes)
    case Failed(e, t1) => Failed(e, t1)
    case Done(t1) =>
      match RemoveFamilyDirs(t1)
      case Err(e) => Failed(FsFailure(e), t1)
      case Ok(t2) =>
        assert forall q | q in t && !IsPrefix(EvmDir, q) && !IsPrefix(SvmDir, q) :: q in t1 by {
          forall q | q in t && !IsPrefix(EvmDir, q) && !IsPrefix(SvmDir, q) ensures q in t1 {
            OutsideFamiliesIsUntouched(routes, q);
          }
        }
        Done(t2)
  }

  /** The clean-up finishes whenever the agent directory and every route's
      directory exist and no route's directory lies inside an earlier one's. */
  lemma CleanupSucceeds(t: Tree, routes: seq<Path>)
    requires FamilyRoutes(routes)
    requires forall i, j | 0 <= i < j < |routes| :: !IsPrefix(Parent(routes[i]), Parent(routes[j]))
    requires AgentDir in t && t[AgentDir].Dir?
    requires forall i | 0 <= i < |routes| :: Parent(routes[i]) in t && t[Parent(routes[i])].Dir?
    ensures Cleanup(t, routes).Done?
  {
    PruneSucceeds(t, routes);
    OutsideFamiliesIsUntouched(routes, AgentDir);
  }

  /** The file-system half of `handleSelection`: write `.env.local` with
      `text`, rename the template `src` to `route.ts`, then clean up. */
  function Apply(t: Tree, src: Path, text: string, routes: seq<Path>): (r: Completion)
    requires TemplateShape(src) && FamilyRoutes(routes)
  {
    match WriteFile(t, EnvPath, text)
    case Err(e) => Failed(FsFailure(e), t)
    case Ok(t1) =>
      match Rename(t1, src, RoutePath)
      case Err(e) => Failed(FsFailure(e), t1)
      case Ok(t2) => Cleanup(t2, routes)
  }

  /** The paths the run writes are outside every template directory. */
  lemma FixedPathsOutsideFamilies(src: Path)
    requires TemplateShape(src)
    ensures src != RoutePath && src != EnvPath
    ensures !IsPrefix(src, EnvPath) && !IsPrefix(RoutePath, EnvPath)
    ensures !IsPrefix(EvmDir, EnvPath) && !IsPrefix(SvmDir, EnvPath)
    ensures !IsPrefix(EvmDir, RoutePath) && !IsPrefix(SvmDir, RoutePath)
    ensures !IsPrefix(src, AgentDir) && !IsPrefix(RoutePath, AgentDir)
    ensures IsPrefix(AgentDir, src) && Parent(RoutePath) == AgentDir
    ensures IsPrefix(EvmDir, src) || IsPrefix(SvmDir, src)
    ensures forall q | IsPrefix(src, q) :: IsPrefix(EvmDir, q) || IsPrefix(SvmDir, q)
  {
    if IsPrefix(EvmDir, Parent(src)) {
      PrefixOfParent(EvmDir, src);
    } else {
      PrefixOfParent(SvmDir, src);
    }
    InsideFamily(src);
    assert EnvPath[0] != AgentDir[0];
    assert RoutePath[3] == "route.ts";
    forall q | IsPrefix(src, q) ensures IsPrefix(EvmDir, q) || IsPrefix(SvmDir, q) {
      if IsPrefix(EvmDir, src) {
        PrefixTransitive(EvmDir, src, q);
      } else {
        PrefixTransitive(SvmDir, src, q);
      }
    }
  }

  /** What a finished materialisation leaves behind: `.env.local` holds `text`,
      `route.ts` holds what `src` held, neither family directory remains, and
      nothing else has changed. */
  lemma ApplyDone(t: Tree, src: Path, text: string, routes: seq<Path>)
    requires TemplateShape(src) && FamilyRoutes(routes)
    requires Apply(t, src, text, routes).Done?
    ensures var after := Apply(t, src, text, routes).fs;
      && EnvPath in after && after[EnvPath] == File(text)
      && src in t && RoutePath in after && after[RoutePath] == t[src]
      && (forall q | q in after :: !IsPrefix(EvmDir, q) && !IsPrefix(SvmDir, q))
      && (forall q | q != EnvPath && !IsPrefix(RoutePath, q) && !IsPrefix(EvmDir, q) && !IsPrefix(SvmDir, q) ::
            (q in after <==> q in t) && (q in t ==> after[q] == t[q]))
  {
    FixedPathsOutsideFamilies(src);
    var t1 := WriteFile(t, EnvPath, text).value;
    var t2 := Rename(t1, src, RoutePath).value;
    var after := Cleanup(t2, routes).fs;
    assert after == Apply(t, src, text, routes).fs;
  }

  /** On a tree where `src` and every route are files, and `.env.local` and
      `route.ts` are not directories, materialisation runs to completion. */
  lemma ApplySucceeds(t: Tree, src: Path, text: string, routes: seq<Path>)
    requires TemplateShape(src) && FamilyRoutes(routes)
    requires forall i, j | 0 <= i < j < |routes| :: !IsPrefix(Parent(routes[i]), Parent(routes[j]))
    requires src in t && t[src].File?
    requires forall i | 0 <= i < |routes| :: routes[i] in t
    requires !(EnvPath in t && t[EnvPath].Dir?) && !(RoutePath in t && t[RoutePath].Dir?)
    ensures Apply(t, src, text, routes).Done?
  {
    FixedPathsOutsideFamilies(src);
    var t1 := WriteFile(t, EnvPath, text).value;
    AncestorIsDir(t, AgentDir, src);
    var t2 := Rename(t1, src, RoutePath).value;
    forall i | 0 <= i < |routes| ensures Parent(routes[i]) in t2 && t2[Parent(routes[i])].Dir? {
      var dir := Parent(routes[i]);
      assert TemplateShape(routes[i]);
      assert IsPrefix(dir, routes[i]);
      AncestorIsDir(t, dir, routes[i]);
      InsideFamily(dir);
    }
    CleanupSucceeds(t2, routes);
  }

  /** Once the family directories are gone, renaming any template fails with
      `ENOENT` for that template. */
  lemma RenameWithoutFamilies(t: Tree, src: Path)
    requires TemplateShape(src)
    requires AgentDir in t && t[AgentDir].Dir?
    requires forall q | q in t :: !IsPrefix(EvmDir, q) && !IsPrefix(SvmDir, q)
    ensures Rename(t, src, RoutePath) == Err(NoEntry(src))
  {
    FixedPathsOutsideFamilies(src);
    var dir := if IsPrefix(EvmDir, src) then EvmDir else SvmDir;
    assert IsPrefix(dir, src) && IsPrefix(dir, dir);
    assert dir !in t && Parent(dir) == AgentDir;
    StatMissingExtends(t, dir, src);
  }

  /** Materialising again over a finished tree rewrites `.env.local` and then
      fails at the rename, because every template is gone. */
  lemma ApplyAgainFails(t: Tree, src: Path, text: string, routes: seq<Path>,
                              src2: Path, text2: string)
    requires TemplateShape(src) && FamilyRoutes(routes) && TemplateShape(src2)
    requires Apply(t, src, text, routes).Done?
    ensures var after := Apply(t, src, text, routes).fs;
            var again := Apply(after, src2, text2, routes);
      && again.Failed?
      && again.failure == FsFailure(NoEntry(src2))
      && EnvPath in again.fs && again.fs[EnvPath] == File(text2)
      && (forall q | q != EnvPath :: (q in again.fs <==> q in after) && (q in after ==> again.fs[q] == after[q]))
  {
    ApplyDone(t, src, text, routes);
    var after := Apply(t, src, text, routes).fs;
    var t1 := WriteFile(after, EnvPath, text2).value;
    AncestorIsDir(after, AgentDir, RoutePath);
    FixedPathsOutsideFamilies(src2);
    assert AgentDir in t1 && t1[AgentDir].Dir?;
    RenameWithoutFamilies(t1, src2);
    assert Apply(after, src2, text2, routes) == Failed(FsFailure(NoEntry(src2)), t1);
  }

  /** The whole of `handleSelection` over the copied template `t`. */
  function HandleSelection(t: Tree, provider: WalletProvider, network: Nullish<Network>, chainId: Option<string>): (r: Completion)
    ensures Resolve(provider, network, chainId).Err? ==> r == Failed(Refused(Resolve(provider, network, chainId).error), t)
    ensures r.Done? ==> Resolve(provider, network, chainId).Ok?
  {
    match Resolve(provider, network, chainId)
    case Err(e) => Failed(Refused(e), t)
    case Ok(selection) =>
      var config := selection.config;
      SelectedTemplateInFamily(provider, network, chainId);
      PrunedRoutesShape();
      Apply(t, RouteTemplate(config), EnvFileText(config.env, NetworkIdText(network)), PrunedRoutes)
  }

  /** Selections refused before the first file-system call leave the tree as
      it was: no network and no truthy chain id, and the Solana keypair
      provider on the chain-id path. */
  lemma RefusedSelectionsLeaveTree(t: Tree, p: WalletProvider)
    ensures HandleSelection(t, p, Undefined, None) == Failed(Refused(UnsupportedNetworkAndChainId), t)
    ensures HandleSelection(t, p, Null, Some("")) == Failed(Refused(UnsupportedNetworkAndChainId), t)
    ensures HandleSelection(t, SolanaKeypair, Null, Some("1")) == Failed(Refused(InvalidCombination), t)
  {
    ChainIdPathRefusals(p);
  }

  /** The selected template has the template shape and is among the pruned ones. */
  lemma SelectedTemplateInFamily(provider: WalletProvider, network: Nullish<Network>, chainId: Option<string>)
    requires Resolve(provider, network, chainId).Ok?
    ensures var config := Resolve(provider, network, chainId).value.config;
      && TemplateShape(RouteTemplate(config))
      && config in AllRouteConfigurations
  {
    var selection := Resolve(provider, network, chainId).value;
    ConfiguredRoutesArePruned(selection.family, provider);
    TemplateParent(selection.config);
  }

  /** What a finished run leaves behind: `.env.local` holds the generated text,
      `route.ts` holds what the selected template held, no template and neither
      family directory remains, and nothing else has changed. */
  lemma HandleSelectionDone(t: Tree, provider: WalletProvider, network: Nullish<Network>, chainId: Option<string>)
    requires HandleSelection(t, provider, network, chainId).Done?
    ensures Resolve(provider, network, chainId).Ok?
    ensures var config := Resolve(provider, network, chainId).value.config;
            var after := HandleSelection(t, provider, network, chainId).fs;
      && EnvPath in after
      && after[EnvPath] == File(EnvFileText(config.env, NetworkIdText(network)))
      && RouteTemplate(config) in t && RoutePath in after
      && after[RoutePath] == t[RouteTemplate(config)]
      && (forall q | q in after :: !IsPrefix(EvmDir, q) && !IsPrefix(SvmDir, q))
      && (forall c | c in AllRouteConfigurations :: RouteTemplate(c) !in after)
      && (forall q | q != EnvPath && !IsPrefix(RoutePath, q) && !IsPrefix(EvmDir, q) && !IsPrefix(SvmDir, q) ::
            (q in after <==> q in t) && (q in t ==> after[q] == t[q]))
  {
    var config := Resolve(provider, network, chainId).value.config;
    SelectedTemplateInFamily(provider, network, chainId);
    PrunedRoutesShape();
    var src := RouteTemplate(config);
    var text := EnvFileText(config.env, NetworkIdText(network));
    assert HandleSelection(t, provider, network, chainId) == Apply(t, src, text, PrunedRoutes);
    ApplyDone(t, src, text, PrunedRoutes);
    var after := Apply(t, src, text, PrunedRoutes).fs;
    forall c | c in AllRouteConfigurations ensures RouteTemplate(c) !in after {
      TemplatesInFamilies(c);
    }
  }

  /** Every configured template lies inside the `evm` or `svm` directory. */
  lemma TemplatesInFamilies(c: RouteConfiguration)
    requires c in AllRouteConfigurations
    ensures IsPrefix(EvmDir, RouteTemplate(c)) || IsPrefix(SvmDir, RouteTemplate(c))
  {
    AllRouteConfigurationsValue();
    ApiRoutesDistinct();
    TemplateParent(c);
    FixedPathsOutsideFamilies(RouteTemplate(c));
  }

  /** The copied template as the scaffolder lays it out: every route template
      is a file, and neither `.env.local` nor `route.ts` is a directory. */
  predicate TemplateInPlace(t: Tree) {
    && (forall c | c in AllRouteConfigurations :: RouteTemplate(c) in t && t[RouteTemplate(c)].File?)
    && !(EnvPath in t && t[EnvPath].Dir?)
    && !(RoutePath in t && t[RoutePath].Dir?)
  }

  /** On a freshly copied template every selection that resolves runs to completion. */
  lemma ScaffoldSucceeds(t: Tree, provider: WalletProvider, network: Nullish<Network>, chainId: Option<string>)
    requires TemplateInPlace(t)
    requires Resolve(provider, network, chainId).Ok?
    ensures HandleSelection(t, provider, network, chainId).Done?
  {
    var config := Resolve(provider, network, chainId).value.config;
    SelectedTemplateInFamily(provider, network, chainId);
    PrunedRoutesShape();
    var src := RouteTemplate(config);
    var text := EnvFileText(config.env, NetworkIdText(network));
    assert HandleSelection(t, provider, network, chainId) == Apply(t, src, text, PrunedRoutes);
    forall i | 0 <= i < |PrunedRoutes| ensures PrunedRoutes[i] in t {
      assert PrunedRoutes[i] == RouteTemplate(AllRouteConfigurations[i]);
    }
    ApplySucceeds(t, src, text, PrunedRoutes);
  }

  /** Every non-empty prefix of the given six-segment paths. */
  function Prefixes(routes: seq<Path>): set<Path>
    requires forall i | 0 <= i < |routes| :: |routes[i]| == 6
  {
    set i, k | 0 <= i < |routes| && 1 <= k <= 6 :: routes[i][..k]
  }

  /** The map laying those prefixes out: whole paths as empty files, shorter
      prefixes as directories. */
  function PrefixMap(routes: seq<Path>): map<Path, Node>
    requires forall i | 0 <= i < |routes| :: |routes[i]| == 6
  {
    map q | q in Prefixes(routes) :: if |q| == 6 then File("") else Dir
  }

  /** Every prefix's parent is a shorter prefix, hence a directory. */
  lemma PrefixMapWellFormed(routes: seq<Path>)
    requires forall i | 0 <= i < |routes| :: |routes[i]| == 6
    ensures WellFormed(PrefixMap(routes))
  {
    var m := PrefixMap(routes);
    forall q | q in m && |q| > 1 ensures Parent(q) in m && m[Parent(q)].Dir? {
      var i, k :| 0 <= i < |routes| && 1 <= k <= 6 && q == routes[i][..k];
      assert Parent(q) == routes[i][..k - 1];
    }
  }

  /** The tree holding every non-empty prefix of the given six-segment paths,
      each path itself as a file. */
  function PrefixTree(routes: seq<Path>): (t: Tree)
    requires forall i | 0 <= i < |routes| :: |routes[i]| == 6
    ensures forall p | p in routes :: p in t && t[p].File?
    ensures forall q | q in t :: exists i | 0 <= i < |routes| :: |q| > 0 && IsPrefix(q, routes[i])
  {
    PrefixMapWellFormed(routes);
    PrefixTreeHoldsRoutes(routes);
    PrefixTreeHoldsOnlyPrefixes(routes);
    PrefixMap(routes)
  }

  /** Each whole path is in the prefix map, as a file. */
  lemma PrefixTreeHoldsRoutes(routes: seq<Path>)
    requires forall i | 0 <= i < |routes| :: |routes[i]| == 6
    ensures forall p | p in routes :: p in PrefixMap(routes) && PrefixMap(routes)[p].File?
  {
    forall p | p in routes ensures p in PrefixMap(routes) && PrefixMap(routes)[p].File? {
      var i :| 0 <= i < |routes| && routes[i] == p;
      assert routes[i][..6] == p;
      assert p in Prefixes(routes);
    }
  }

  /** The prefix map holds nothing but prefixes of the paths. */
  lemma PrefixTreeHoldsOnlyPrefixes(routes: seq<Path>)
    requires forall i | 0 <= i < |routes| :: |routes[i]| == 6
    ensures forall q | q in PrefixMap(routes) :: exists i | 0 <= i < |routes| :: |q| > 0 && IsPrefix(q, routes[i])
  {
    forall q | q in PrefixMap(routes) ensures exists i | 0 <= i < |routes| :: |q| > 0 && IsPrefix(q, routes[i]) {
      assert q in Prefixes(routes);
      var i, k :| 0 <= i < |routes| && 1 <= k <= 6 && q == routes[i][..k];
      assert |q| > 0 && IsPrefix(q, routes[i]);
    }
  }

  /** A freshly copied template: the five route templates and the directories above them. */
  function FreshTemplateTree(): Tree {
    PrunedRoutesShape();
    PrefixTree(PrunedRoutes)
  }

  /** A tree of template prefixes holds neither `.env.local` nor `route.ts`:
      every entry starts with `app` and, four segments deep, names a family. */
  lemma PrefixTreeLeavesFixedPathsFree(routes: seq<Path>)
    requires FamilyRoutes(routes)
    ensures EnvPath !in PrefixTree(routes) && RoutePath !in PrefixTree(routes)
  {
    var t := PrefixTree(routes);
    forall q | q in t ensures q != EnvPath && q != RoutePath {
      var i :| 0 <= i < |routes| && |q| > 0 && IsPrefix(q, routes[i]);
      PrefixOfTemplate(q, routes[i]);
    }
  }

  /** A non-empty prefix of a template path is neither `.env.local` nor `route.ts`. */
  lemma PrefixOfTemplate(q: Path, src: Path)
    requires TemplateShape(src) && |q| > 0 && IsPrefix(q, src)
    ensures q != EnvPath && q != RoutePath
  {
    FixedPathsOutsideFamilies(src);
    assert q[0] == src[0] == AgentDir[0];
    if |q| == 4 {
      assert q[3] == src[3];
      InsideFamily(src);
    }
  }

  /** Each configuration's template is among the templates of the list. */
  lemma RouteTemplatesListed(cs: seq<RouteConfiguration>)
    ensures forall c | c in cs :: RouteTemplate(c) in RouteTemplates(cs)
  {
    forall c | c in cs ensures RouteTemplate(c) in RouteTemplates(cs) {
      var i :| 0 <= i < |cs| && cs[i] == c;
      assert RouteTemplates(cs)[i] == RouteTemplate(c);
    }
  }

  /** The fresh template has every route template in place and neither
      `.env.local` nor `route.ts`. */
  lemma FreshTemplateInPlace()
    ensures TemplateInPlace(FreshTemplateTree())
  {
    PrunedRoutesShape();
    RouteTemplatesListed(AllRouteConfigurations);
    PrefixTreeLeavesFixedPathsFree(PrunedRoutes);
  }

  /** On any tree with the templates in place, the CDP wallet on Base Sepolia
      runs to completion. */
  lemma CdpOnBaseSepoliaFinishes(t: Tree)
    requires TemplateInPlace(t)
    ensures HandleSelection(t, CDP, Present(BaseSepolia), None).Done?
  {
    OfferedProvidersResolve(BaseSepolia, CDP, None);
    ScaffoldSucceeds(t, CDP, Present(BaseSepolia), None);
  }

  /** The requirements of the run-level lemmas can be met: on the fresh
      template, the CDP wallet on Base Sepolia runs to completion. */
  lemma FreshTemplateRunFinishes()
    ensures HandleSelection(FreshTemplateTree(), CDP, Present(BaseSepolia), None).Done?
  {
    FreshTemplateInPlace();
    CdpOnBaseSepoliaFinishes(FreshTemplateTree());
  }

  /** Running again on a finished tree rewrites `.env.local` and then fails at
      the promotion, because the selected template is gone. */
  lemma SecondRunFails(t: Tree, provider: WalletProvider, network: Nullish<Network>, chainId: Option<string>,
                       provider2: WalletProvider, network2: Nullish<Network>, chainId2: Option<string>)
    requires HandleSelection(t, provider, network, chainId).Done?
    requires Resolve(provider2, network2, chainId2).Ok?
    ensures var after := HandleSelection(t, provider, network, chainId).fs;
            var config := Resolve(provider2, network2, chainId2).value.config;
            var again := HandleSelection(after, provider2, network2, chainId2);
      && again.Failed?
      && again.failure == FsFailure(NoEntry(RouteTemplate(config)))
      && EnvPath in again.fs && again.fs[EnvPath] == File(EnvFileText(config.env, NetworkIdText(network2)))
      && (forall q | q != EnvPath :: (q in again.fs <==> q in after) && (q in after ==> again.fs[q] == after[q]))
  {
    var config := Resolve(provider, network, chainId).value.config;
    var config2 := Resolve(provider2, network2, chainId2).value.config;
    SelectedTemplateInFamily(provider, network, chainId);
    SelectedTemplateInFamily(provider2, network2, chainId2);
    PrunedRoutesShape();
    var src := RouteTemplate(config);
    var text := EnvFileText(config.env, NetworkIdText(network));
    assert HandleSelection(t, provider, network, chainId) == Apply(t, src, text, PrunedRoutes);
    var after := Apply(t, src, text, PrunedRoutes).fs;
    var src2 := RouteTemplate(config2);
    var text2 := EnvFileText(config2.env, NetworkIdText(network2));
    assert HandleSelection(after, provider2, network2, chainId2) == Apply(after, src2, text2, PrunedRoutes);
    ApplyAgainFails(t, src, text, PrunedRoutes, src2, text2);
  }

  /** A finished run leaves a `.env.local` whose lines read back exactly as laid out. */
  lemma EnvFileOfRunReadsBack(t: Tree, provider: WalletProvider, network: Nullish<Network>, chainId: Option<string>)
    requires HandleSelection(t, provider, network, chainId).Done?
    ensures var config := Resolve(provider, network, chainId).value.config;
            var after := HandleSelection(t, provider, network, chainId).fs;
      && EnvPath in after && after[EnvPath].File?
      && Split(after[EnvPath].content, '\n') == EnvFileLines(config.env, NetworkIdText(network))
  {
    HandleSelectionDone(t, provider, network, chainId);
    var config := Resolve(provider, network, chainId).value.config;
    SelectedTemplateInFamily(provider, network, chainId);
    ConfiguredTextIsSingleLine(config);
    EnvFileReadsBack(config.env, NetworkIdText(network));
  }

  /** The `NETWORK_ID=` line of the intended layout: the network identifier
      when a network was chosen, the text `undefined` when none was passed,
      and `null` when the "other" choice passed `null`. */
  lemma NetworkIdLine(env: EnvTemplate, network: Nullish<Network>)
    ensures var lines := EnvFileLines(env, NetworkIdText(network));
      && (network == Undefined ==> "NETWORK_ID=undefined" in lines)
      && (network == Null ==> "NETWORK_ID=null" in lines)
      && (network == Present(BaseSepolia) ==> "NETWORK_ID=base-sepolia" in lines)
      && (network.Present? ==> "NETWORK_ID=" + NetworkId(network.value) in lines)
  {
    var text := NetworkIdText(network);
    NetworkLineWritten(env, text);
    NetworkLineLiterals();
    if network == Present(BaseSepolia) {
      assert text == "base-sepolia";
    }
  }

  /** The three spellings of the `NETWORK_ID=` line the run can write. */
  lemma NetworkLineLiterals()
    ensures "NETWORK_ID=" + "undefined" == "NETWORK_ID=undefined"
    ensures "NETWORK_ID=" + "null" == "NETWORK_ID=null"
    ensures "NETWORK_ID=" + "base-sepolia" == "NETWORK_ID=base-sepolia"
  {
  }

  /** The `NETWORK_ID=` line a finished run writes to `.env.local`. */
  lemma RunRecordsNetworkId(t: Tree, provider: WalletProvider, network: Nullish<Network>, chainId: Option<string>)
    requires HandleSelection(t, provider, network, chainId).Done?
    ensures EnvPath in HandleSelection(t, provider, network, chainId).fs
    ensures HandleSelection(t, provider, network, chainId).fs[EnvPath].File?
    ensures var lines := Split(HandleSelection(t, provider, network, chainId).fs[EnvPath].content, '\n');
      && (network == Undefined ==> "NETWORK_ID=undefined" in lines)
      && (network == Null ==> "NETWORK_ID=null" in lines)
      && (network == Present(BaseSepolia) ==> "NETWORK_ID=base-sepolia" in lines)
      && (network.Present? ==> "NETWORK_ID=" + NetworkId(network.value) in lines)
  {
    EnvFileOfRunReadsBack(t, provider, network, chainId);
    NetworkIdLine(Resolve(provider, network, chainId).value.config.env, network);
  }

}

=== FILE: packagemanager.dfy ===
/** Which package manager launched the scaffolder, read from the user agent
    string that npm, yarn, pnpm and bun export to the scripts they run. */
module PackageManager {
  import opened Wrappers

  /** `p` is a prefix of `s`: JavaScript's `s.startsWith(p)`. */
  predicate StartsWith(s: string, p: string) {
    |p| <= |s| && s[..|p|] == p
  }

  /** The package managers the scaffolder knows how to name. */
  const KnownManagers: set<string> := {"npm", "yarn", "pnpm", "bun"}

  /** `detectPackageManager`, with the `npm_config_user_agent` variable passed
      in: the prefixes are tried in the order yarn, pnpm, npm, bun, and npm is
      the answer when the variable is unset, empty or names none of them. */
  function DetectPackageManager(userAgent: Option<string>): (r: string)
    ensures r in KnownManagers
    ensures r == "yarn" <==> userAgent.Some? && StartsWith(userAgent.value, "yarn")
    ensures r == "pnpm" <==> userAgent.Some? && StartsWith(userAgent.value, "pnpm")
    ensures r == "bun" <==> userAgent.Some? && StartsWith(userAgent.value, "bun")
    ensures r == "npm" <==> !(userAgent.Some? && (StartsWith(userAgent.value, "yarn")
                                                || StartsWith(userAgent.value, "pnpm")
                                                || StartsWith(userAgent.value, "bun")))
  {
    if userAgent.Some? && userAgent.value != "" then
      var ua := userAgent.value;
      PrefixesExclusive(ua);
      if StartsWith(ua, "yarn") then "yarn"
      else if StartsWith(ua, "pnpm") then "pnpm"
      else if StartsWith(ua, "npm") then "npm"
      else if StartsWith(ua, "bun") then "bun"
      else "npm"
    else "npm"
  }

  /** The four prefixes begin with different letters, so at most one of them
      matches any user agent and the order of the tests never decides the
      answer. */
  lemma PrefixesExclusive(ua: string)
    ensures StartsWith(ua, "yarn") ==> !StartsWith(ua, "pnpm") && !StartsWith(ua, "npm") && !StartsWith(ua, "bun")
    ensures StartsWith(ua, "pnpm") ==> !StartsWith(ua, "npm") && !StartsWith(ua, "bun")
    ensures StartsWith(ua, "npm") ==> !StartsWith(ua, "bun")
    ensures |ua| > 0 && ua[0] == 'n' ==> !StartsWith(ua, "yarn") && !StartsWith(ua, "pnpm") && !StartsWith(ua, "bun")
  {
    if StartsWith(ua, "yarn") { assert ua[0] == "yarn"[0]; }
    if StartsWith(ua, "pnpm") { assert ua[0] == "pnpm"[0]; }
    if StartsWith(ua, "npm") { assert ua[0] == "npm"[0]; }
    if StartsWith(ua, "bun") { assert ua[0] == "bun"[0]; }
  }

  /** User agents as the package managers write them, and the defaults. */
  lemma DetectionExamples()
    ensures DetectPackageManager(Some("pnpm/9.1.0 npm/? node/v20.11.0 linux x64")) == "pnpm"
    ensures DetectPackageManager(Some("npm/10.2.4 node/v20.11.0 darwin arm64")) == "npm"
    ensures DetectPackageManager(Some("")) == "npm"
    ensures DetectPackageManager(None) == "npm"
  {
    var pnpm := "pnpm/9.1.0 npm/? node/v20.11.0 linux x64";
    assert pnpm[0] == 'p' && pnpm[1] == 'n' && pnpm[2] == 'p' && pnpm[3] == 'm';
    assert pnpm[..4] == "pnpm";
    var npm := "npm/10.2.4 node/v20.11.0 darwin arm64";
    assert npm[0] == 'n';
    PrefixesExclusive(npm);
  }
}

=== FILE: packagename.dfy ===
/** npm package names: the validation pattern the prompt applies and the
    sanitiser that proposes a name from the project name. Strings are
    sequences of Unicode scalar values. */
module PackageName {

  /** The characters JavaScript's `\s` matches and `String.prototype.trim`
      strips: the ECMAScript WhiteSpace and LineTerminator code points. */
  predicate IsJsWhitespace(c: char) {
    || c == '\t' || c == '\n' || c == '\U{000B}' || c == '\U{000C}' || c == '\r' || c == ' '
    || c == '\U{00A0}' || c == '\U{1680}' || ('\U{2000}' <= c <= '\U{200A}')
    || c == '\U{2028}' || c == '\U{2029}' || c == '\U{202F}' || c == '\U{205F}'
    || c == '\U{3000}' || c == '\U{FEFF}'
  }

  /** `[a-z\d\-~]`: the characters a sanitised name may contain. */
  predicate IsNameStart(c: char) {
    ('a' <= c <= 'z') || ('0' <= c <= '9') || c == '-' || c == '~'
  }

  /** `[a-z\d\-._~]`. */
  predicate IsNameChar(c: char) {
    IsNameStart(c) || c == '.' || c == '_'
  }

  /** `[a-z\d\-*~]`. */
  predicate IsScopeStart(c: char) {
    IsNameStart(c) || c == '*'
  }

  /** `[a-z\d\-*._~]`. */
  predicate IsScopeChar(c: char) {
    IsNameChar(c) || c == '*'
  }

  /** `[a-z\d\-~][a-z\d\-._~]*` spanning the whole string. */
  predicate IsBareName(s: string) {
    |s| > 0 && IsNameStart(s[0]) && forall i | 1 <= i < |s| :: IsNameChar(s[i])
  }

  /** `[a-z\d\-*~][a-z\d\-*._~]*` spanning the whole string. */
  predicate IsScopeName(s: string) {
    |s| > 0 && IsScopeStart(s[0]) && forall i | 1 <= i < |s| :: IsScopeChar(s[i])
  }

  /** The anchored pattern `^(?:@scope/)?name$`, read declaratively: either a
      bare name, or `@`, a scope, a slash at some position `k`, and a name. */
  predicate MatchesPackagePattern(s: string) {
    || IsBareName(s)
    || exists k | 1 < k < |s| :: s[0] == '@' && IsScopeName(s[1..k]) && s[k] == '/' && IsBareName(s[k + 1..])
  }

  /** The position of the first `c` in `s`, or `|s|` when there is none. */
  function IndexOf(s: string, c: char): (r: nat)
    ensures r <= |s|
    ensures forall i | 0 <= i < r :: s[i] != c
    ensures r < |s| ==> s[r] == c
  {
    if |s| == 0 then 0
    else if s[0] == c then 0
    else 1 + IndexOf(s[1..], c)
  }

  /** `isValidPackageName`: the scope, if any, ends at the first slash, since
      neither a scope nor a name may contain one. */
  function IsValidPackageName(s: string): (r: bool)
    ensures r <==> MatchesPackagePattern(s)
  {
    if |s| > 0 && s[0] == '@' then
      var k := IndexOf(s, '/');
      assert !IsBareName(s);
      assert forall j | 1 < j < |s| && s[j] == '/' && IsScopeName(s[1..j]) :: j == k by {
        forall j | 1 < j < |s| && s[j] == '/' && IsScopeName(s[1..j]) ensures j == k {
          assert forall i | 1 <= i < j :: s[i] == s[1..j][i - 1];
        }
      }
      1 < k < |s| && IsScopeName(s[1..k]) && IsBareName(s[k + 1..])
    else
      IsBareName(s)
  }

  /** The number of leading whitespace characters. */
  function LeadingSpace(s: string): (n: nat)
    ensures n <= |s|
    ensures forall i | 0 <= i < n :: IsJsWhitespace(s[i])
    ensures n < |s| ==> !IsJsWhitespace(s[n])
  {
    if |s| > 0 && IsJsWhitespace(s[0]) then 1 + LeadingSpace(s[1..]) else 0
  }

  /** The number of trailing whitespace characters. */
  function TrailingSpace(s: string): (n: nat)
    ensures n <= |s|
    ensures forall i | |s| - n <= i < |s| :: IsJsWhitespace(s[i])
    ensures n < |s| ==> !IsJsWhitespace(s[|s| - n - 1])
  {
    if |s| > 0 && IsJsWhitespace(s[|s| - 1]) then 1 + TrailingSpace(s[..|s| - 1]) else 0
  }

  /** Every character of `s` is whitespace. */
  predicate AllSpace(s: string) {
    forall i | 0 <= i < |s| :: IsJsWhitespace(s[i])
  }

  /** `String.prototype.trim`: the string without leading and trailing whitespace. */
  function Trim(s: string): (r: string)
    ensures |r| > 0 ==> !IsJsWhitespace(r[0]) && !IsJsWhitespace(r[|r| - 1])
    ensures r == [] <==> AllSpace(s)
    ensures (forall i | 0 <= i < |s| :: !IsJsWhitespace(s[i])) ==> r == s
  {
    var lead := LeadingSpace(s);
    if lead == |s| then []
    else
      var trail := TrailingSpace(s);
      assert trail < |s| - lead;
      var r := s[lead..|s| - trail];
      assert forall i | 0 <= i < |r| :: r[i] == s[lead + i];
      r
  }

  /** `s` is whitespace, then `r`, then whitespace. */
  ghost predicate SurroundedBySpace(s: string, r: string) {
    exists a, b | AllSpace(a) && AllSpace(b) :: s == a + r + b
  }

  /** Trimming removes only surrounding whitespace. */
  lemma TrimIsInfix(s: string)
    ensures SurroundedBySpace(s, Trim(s))
  {
    var lead := LeadingSpace(s);
    var r := Trim(s);
    if lead == |s| {
      assert AllSpace(s) && AllSpace([]) && s == s + r + [];
    } else {
      var trail := TrailingSpace(s);
      var a, b := s[..lead], s[|s| - trail..];
      assert AllSpace(a) by {
        forall i | 0 <= i < |a| ensures IsJsWhitespace(a[i]) {
          assert a[i] == s[i];
        }
      }
      assert AllSpace(b) by {
        forall i | 0 <= i < |b| ensures IsJsWhitespace(b[i]) {
          assert b[i] == s[|s| - trail + i];
        }
      }
      assert s == a + r + b;
    }
  }

  /** Trimming keeps every character that is not whitespace. */
  lemma TrimKeeps(s: string, k: nat)
    requires k < |s| && !IsJsWhitespace(s[k])
    ensures s[k] in Trim(s)
  {
    var lead, trail := LeadingSpace(s), TrailingSpace(s);
    assert lead <= k < |s| - trail;
    assert Trim(s)[k - lead] == s[k];
  }

  /** The ASCII lower-case mapping of one character: capitals move to their
      small letters, everything else stays. */
  function LowerAscii(c: char): char {
    if 'A' <= c <= 'Z' then (c as int + 32) as char else c
  }

  /** The two characters outside ASCII whose lower-case form contains an ASCII letter. */
  predicate LowersToAscii(c: char) {
    c == '\U{212A}' || c == '\U{0130}'
  }

  /** The lower-case form of one character, as `toLowerCase` produces it for
      every character whose lower-case form contains an ASCII character: the
      ASCII capitals, the Kelvin sign and the dotted capital I. */
  function LowerChar(c: char): (r: string)
    ensures |r| > 0
    ensures forall i | 0 <= i < |r| :: !('A' <= r[i] <= 'Z')
    ensures !LowersToAscii(c) ==> r == [LowerAscii(c)]
  {
    if c == '\U{212A}' then "k"
    else if c == '\U{0130}' then "i\U{0307}"
    else [LowerAscii(c)]
  }

  /** `String.prototype.toLowerCase`, one character at a time. */
  function ToLower(s: string): (r: string)
    ensures forall i | 0 <= i < |r| :: !('A' <= r[i] <= 'Z')
    ensures (forall i | 0 <= i < |s| :: !LowersToAscii(s[i])) ==>
      |r| == |s| && forall i | 0 <= i < |s| :: r[i] == LowerAscii(s[i])
  {
    if |s| == 0 then []
    else
      var head := LowerChar(s[0]);
      var tail := ToLower(s[1..]);
      var r := head + tail;
      assert forall i | |head| <= i < |r| :: r[i] == tail[i - |head|];
      assert forall i | 1 <= i < |s| :: s[i] == s[1..][i - 1];
      r
  }

  /** Lower-casing keeps every character that is neither a capital nor one of
      the two characters that lower-case into ASCII. */
  lemma {:induction false} LowerKeeps(s: string, k: nat)
    requires k < |s| && !('A' <= s[k] <= 'Z') && !LowersToAscii(s[k])
    ensures s[k] in ToLower(s)
  {
    if k == 0 {
      assert ToLower(s)[0] == s[0];
    } else {
      LowerKeeps(s[1..], k - 1);
    }
  }

  /** Characters of a sanitised name are left alone by lower-casing. */
  lemma {:induction false} LowerKeepsNameChars(s: string)
    requires forall i | 0 <= i < |s| :: IsNameStart(s[i])
    ensures ToLower(s) == s
  {
    if |s| > 0 {
      LowerKeepsNameChars(s[1..]);
      assert [s[0]] + s[1..] == s;
    }
  }

  /** Sanitised-name characters are not whitespace. */
  lemma NameCharsAreNotSpace(s: string)
    requires forall i | 0 <= i < |s| :: IsNameStart(s[i])
    ensures forall i | 0 <= i < |s| :: !IsJsWhitespace(s[i])
  {
  }

  /** `s` without its leading characters that satisfy `inRun`. */
  function DropRun(s: string, inRun: char -> bool): (r: string)
    ensures |r| <= |s| && r == s[|s| - |r|..]
    ensures |s| > 0 && inRun(s[0]) ==> |r| < |s|
    ensures |r| > 0 ==> !inRun(r[0])
  {
    if |s| > 0 && inRun(s[0]) then DropRun(s[1..], inRun) else s
  }

  /** `s.replace(/[...]+/g, "-")`: every maximal run of characters satisfying
      `inRun` becomes a single hyphen; everything else is kept in order. */
  function ReplaceRuns(s: string, inRun: char -> bool): (r: string)
    ensures |r| <= |s|
    ensures !inRun('-') ==> forall i | 0 <= i < |r| :: !inRun(r[i])
    ensures (forall i | 0 <= i < |s| :: !inRun(s[i])) ==> r == s
    ensures forall i | 0 <= i < |r| :: r[i] == '-' || r[i] in s
    decreases |s|
  {
    if |s| == 0 then []
    else if inRun(s[0]) then
      var rest := DropRun(s, inRun);
      var tail := ReplaceRuns(rest, inRun);
      assert forall c | c in rest :: c in s;
      "-" + tail
    else
      var tail := ReplaceRuns(s[1..], inRun);
      assert forall c | c in s[1..] :: c in s;
      [s[0]] + tail
  }

  /** `DropRun` only removes characters of the run. */
  lemma {:induction false} DropRunSkipsOnlyRun(s: string, inRun: char -> bool, k: nat)
    requires k < |s| && !inRun(s[k])
    ensures s[k] in DropRun(s, inRun)
    decreases |s|
  {
    if inRun(s[0]) {
      DropRunSkipsOnlyRun(s[1..], inRun, k - 1);
    }
  }

  /** The same replacement read one character at a time, with a flag for
      whether the previous character belonged to a run: a character outside
      the class is copied, one inside becomes `-` when it opens a run and
      disappears when it continues one. */
  function HyphenateRuns(s: string, inRun: char -> bool, afterRun: bool): string
    decreases |s|
  {
    if |s| == 0 then []
    else if !inRun(s[0]) then [s[0]] + HyphenateRuns(s[1..], inRun, false)
    else (if afterRun then "" else "-") + HyphenateRuns(s[1..], inRun, true)
  }

  /** Inside a run, the character-at-a-time reading skips to the run's end. */
  lemma {:induction false} HyphenateRunsContinued(s: string, inRun: char -> bool)
    ensures HyphenateRuns(s, inRun, true) == HyphenateRuns(DropRun(s, inRun), inRun, false)
    decreases |s|
  {
    if |s| > 0 && inRun(s[0]) {
      HyphenateRunsContinued(s[1..], inRun);
    }
  }

  /** Skipping each whole run and emitting one hyphen for it agrees with the
      character-at-a-time reading: each maximal run becomes exactly one `-`,
      and the characters between runs are kept, in order. */
  lemma {:induction false} ReplaceRunsOneHyphenPerRun(s: string, inRun: char -> bool)
    ensures ReplaceRuns(s, inRun) == HyphenateRuns(s, inRun, false)
    decreases |s|
  {
    if |s| > 0 {
      if inRun(s[0]) {
        HyphenateRunsContinued(s[1..], inRun);
        assert DropRun(s[1..], inRun) == DropRun(s, inRun);
        ReplaceRunsOneHyphenPerRun(DropRun(s, inRun), inRun);
      } else {
        ReplaceRunsOneHyphenPerRun(s[1..], inRun);
      }
    }
  }

  /** A character outside `[a-z\d\-~]`. */
  predicate IsDisallowed(c: char) {
    !IsNameStart(c)
  }

  /** `.replace(/^[._]/, "")`: drop one leading dot or underscore. */
  function StripLeadingDot(s: string): (r: string)
    ensures |s| > 0 && (s[0] == '.' || s[0] == '_') ==> r == s[1..]
    ensures !(|s| > 0 && (s[0] == '.' || s[0] == '_')) ==> r == s
    ensures forall c | c in s && c != '.' && c != '_' :: c in r
  {
    if |s| > 0 && (s[0] == '.' || s[0] == '_') then
      assert forall c | c in s :: c == s[0] || c in s[1..];
      s[1..]
    else s
  }

  /** `toValidPackageName`: trim, lower-case, turn whitespace runs into hyphens,
      drop one leading dot or underscore, and turn every run of other
      characters outside `[a-z\d\-~]` into a hyphen. */
  function ToValidPackageName(projectName: string): (r: string)
    ensures forall i | 0 <= i < |r| :: IsNameStart(r[i])
  {
    var lowered := ToLower(Trim(projectName));
    var hyphenated := ReplaceRuns(lowered, IsJsWhitespace);
    ReplaceRuns(StripLeadingDot(hyphenated), IsDisallowed)
  }

  /** Every character of the project name that is already allowed in a name
      survives sanitising, so the result is empty only when there was none. */
  lemma SanitiseKeepsNameChars(projectName: string, c: char)
    requires c in projectName && IsNameStart(c)
    ensures c in ToValidPackageName(projectName)
  {
    NameCharsAreNotSpace([c]);
    var trimmed := Trim(projectName);
    var k :| 0 <= k < |projectName| && projectName[k] == c;
    TrimKeeps(projectName, k);
    var k1 :| 0 <= k1 < |trimmed| && trimmed[k1] == c;
    LowerKeeps(trimmed, k1);
    var lowered := ToLower(trimmed);
    var k2 :| 0 <= k2 < |lowered| && lowered[k2] == c;
    HyphenationKeepsNameChars(lowered, k2);
    var stripped := StripLeadingDot(ReplaceRuns(lowered, IsJsWhitespace));
    var k3 :| 0 <= k3 < |stripped| && stripped[k3] == c;
    KeptOutsideRuns(stripped, IsDisallowed, k3);
  }

  /** Turning whitespace runs into hyphens and dropping a leading dot keep
      every name character. */
  lemma HyphenationKeepsNameChars(s: string, k: nat)
    requires k < |s| && IsNameStart(s[k])
    ensures s[k] in StripLeadingDot(ReplaceRuns(s, IsJsWhitespace))
  {
    NameCharsAreNotSpace([s[k]]);
    KeptOutsideRuns(s, IsJsWhitespace, k);
  }

  /** A character outside the replaced class survives `ReplaceRuns`. */
  lemma {:induction false} KeptOutsideRuns(s: string, inRun: char -> bool, k: nat)
    requires k < |s| && !inRun(s[k])
    ensures s[k] in ReplaceRuns(s, inRun)
    decreases |s|
  {
    if inRun(s[0]) {
      DropRunSkipsOnlyRun(s, inRun, k);
      var rest := DropRun(s, inRun);
      var j :| 0 <= j < |rest| && rest[j] == s[k];
      KeptOutsideRuns(rest, inRun, j);
    } else if k == 0 {
      assert ReplaceRuns(s, inRun)[0] == s[0];
    } else {
      KeptOutsideRuns(s[1..], inRun, k - 1);
    }
  }

  /** A name made only of `[a-z\d\-~]` comes back from the sanitiser unchanged. */
  lemma SanitiseKeepsNames(s: string)
    requires forall i | 0 <= i < |s| :: IsNameStart(s[i])
    ensures ToValidPackageName(s) == s
  {
    NameCharsAreNotSpace(s);
    var trimmed := Trim(s);
    assert trimmed == s;
    LowerKeepsNameChars(s);
    var hyphenated := ReplaceRuns(ToLower(trimmed), IsJsWhitespace);
    assert hyphenated == s;
    assert StripLeadingDot(hyphenated) == s;
    assert ReplaceRuns(s, IsDisallowed) == s;
  }

  /** Whenever the sanitiser produces a non-empty name, the validation pattern
      accepts it, as a bare name. */
  lemma SanitisedNamesAreValid(projectName: string)
    ensures var r := ToValidPackageName(projectName);
      |r| > 0 ==> IsBareName(r) && IsValidPackageName(r)
  {
  }

  /** Sanitising a sanitised name changes nothing. */
  lemma SanitiseIdempotent(projectName: string)
    ensures ToValidPackageName(ToValidPackageName(projectName)) == ToValidPackageName(projectName)
  {
    SanitiseKeepsNames(ToValidPackageName(projectName));
  }

  /** A project name made only of whitespace, or a lone dot, sanitises to the
      empty string, which the pattern rejects: the sanitiser does not always
      return a valid name. */
  lemma SanitiserCanReturnInvalid()
    ensures ToValidPackageName(".") == ""
    ensures ToValidPackageName(" \t") == ""
    ensures !IsValidPackageName("")
  {
    assert ToLower(Trim(".")) == "." by {
      assert !IsJsWhitespace('.');
    }
    assert ReplaceRuns(".", IsJsWhitespace) == ".";
    assert StripLeadingDot(".") == "";
    assert Trim(" \t") == "" by {
      assert AllSpace(" \t");
    }
  }

  /** `@scope/name` is accepted whenever the scope and the name are. */
  lemma ScopedNameAccepted(scope: string, name: string)
    requires IsScopeName(scope) && IsBareName(name)
    ensures IsValidPackageName("@" + scope + "/" + name)
  {
    var s := "@" + scope + "/" + name;
    var k := |scope| + 1;
    assert s[1..k] == scope && s[k] == '/' && s[k + 1..] == name;
  }

  /** An empty scope, a scope without a name, and upper case are refused. */
  lemma RejectedExamples()
    ensures !IsValidPackageName("@/agentkit")
    ensures !IsValidPackageName("@scope/")
    ensures !IsValidPackageName("My-Agent")
  {
    assert IndexOf("@scope/", '/') == 6;
    var s := "@/agentkit";
    assert forall k | 1 < k < |s| :: !IsScopeName(s[1..k]) by {
      forall k | 1 < k < |s| ensures !IsScopeName(s[1..k]) {
        assert s[1..k][0] == '/';
      }
    }
  }
}

=== FILE: resolution.dfy ===
/** Choosing a route configuration from the user's answers: the network family,
    the wallet providers offered for a network, and the lookup that
    `handleSelection` performs before it touches the file system. */
module Resolution {
  import opened Wrappers
  import opened Types
  import opened Constants

  /** An optional argument as the prompts deliver it: a value, `undefined`
      (never asked) or `null` (the "other" network choice). */
  datatype Nullish<+T> = Present(value: T) | Undefined | Null

  /** JavaScript truthiness of an optional chain id: the empty string is falsy. */
  predicate Truthy(chainId: Option<string>) {
    chainId.Some? && chainId.value != ""
  }

  /** `getNetworkFamily`: membership in the EVM set first, then the SVM set.
      The two sets agree with the union type each network identifier is
      declared in, so the `undefined` outcome never arises. */
  function GetNetworkFamily(n: Network): (r: Option<Family>)
    ensures r == Some(DeclaredFamily(n))
    ensures r == Some(EVM) <==> n in EvmNetworks
    ensures r == Some(SVM) <==> n !in EvmNetworks && n in SvmNetworks
  {
    NetworkSetsPartition();
    if n in EvmNetworks then Some(EVM)
    else if n in SvmNetworks then Some(SVM)
    else None
  }

  /** The networks on which a CDP-managed wallet is offered. */
  const CdpSupportedNetworks: seq<Network> :=
    [ArbitrumMainnet, BaseMainnet, BaseSepolia, EthereumMainnet, PolygonMainnet]

  /** `getWalletProviders`: the providers a network supports, or the EVM
      providers that need no CDP support when no network was chosen. */
  function GetWalletProviders(network: Nullish<Network>): (r: seq<WalletProvider>)
    ensures |r| > 0
    ensures forall i | 0 <= i < |r| ::
      WalletProviderRouteConfigurations(if network.Present? then DeclaredFamily(network.value) else EVM, r[i]).Some?
    ensures r[0] == CDP <==> (network.Present? && network.value in CdpSupportedNetworks)
    ensures !network.Present? ==> r == [Viem, Privy]
    ensures network.Present? && DeclaredFamily(network.value) == SVM ==> r == [SolanaKeypair, Privy]
    ensures network.Present? && DeclaredFamily(network.value) == EVM ==>
      r == if network.value in CdpSupportedNetworks then [CDP, Viem, Privy] else [Viem, Privy]
  {
    if network.Present? then
      var r := NetworkToWalletProviders(network.value);
      ProviderListsAndDefaults(network.value);
      forall i | 0 <= i < |r| ensures WalletProviderRouteConfigurations(DeclaredFamily(network.value), r[i]).Some? {
        PromptedSelectionsResolve(network.value, r[i]);
      }
      r
    else
      forall i | 0 <= i < 2 ensures WalletProviderRouteConfigurations(EVM, NonCdpSupportedEvmWalletProviders[i]).Some? {
        ChainIdProvidersResolve(NonCdpSupportedEvmWalletProviders[i]);
      }
      NonCdpSupportedEvmWalletProviders
  }

  /** Why `handleSelection` refuses a selection before touching any file. */
  datatype SelectionError =
    | UnsupportedNetworkAndChainId  // neither a network nor a chain id
    | UnrecognizedNetwork           // a network outside both sets
    | InvalidCombination            // no route for the provider in that family

  /** The family and route configuration a selection resolves to. */
  datatype Selection = Selection(family: Family, config: RouteConfiguration)

  /** The family `handleSelection` settles on: the network's family when a
      network is given, EVM when only a truthy chain id is. */
  function SelectedFamily(network: Nullish<Network>, chainId: Option<string>): (r: Result<Option<Family>, SelectionError>)
    ensures r.Err? <==> !network.Present? && !Truthy(chainId)
    ensures r.Err? ==> r.error == UnsupportedNetworkAndChainId
    ensures r.Ok? ==> r.value == Some(if network.Present? then DeclaredFamily(network.value) else EVM)
  {
    if network.Present? then Ok(GetNetworkFamily(network.value))
    else if Truthy(chainId) then Ok(Some(EVM))
    else Err(UnsupportedNetworkAndChainId)
  }

  /** The checks of `handleSelection` that precede the first file-system call. */
  function Resolve(provider: WalletProvider, network: Nullish<Network>, chainId: Option<string>): (r: Result<Selection, SelectionError>)
    ensures r == Err(UnsupportedNetworkAndChainId) <==> !network.Present? && !Truthy(chainId)
    ensures r != Err(UnrecognizedNetwork)
    ensures r.Ok? ==> r.value.family == (if network.Present? then DeclaredFamily(network.value) else EVM)
    ensures r.Ok? ==> WalletProviderRouteConfigurations(r.value.family, provider) == Some(r.value.config)
    ensures r.Ok? <==> && (network.Present? || Truthy(chainId))
                       && WalletProviderRouteConfigurations(
                            if network.Present? then DeclaredFamily(network.value) else EVM, provider).Some?
  {
    match SelectedFamily(network, chainId)
    case Err(e) => Err(e)
    case Ok(None) => Err(UnrecognizedNetwork)
    case Ok(Some(family)) =>
      match WalletProviderRouteConfigurations(family, provider)
      case None => Err(InvalidCombination)
      case Some(config) => Ok(Selection(family, config))
  }

  /** Every provider the prompt offers for a chosen network resolves, whatever
      the chain id. */
  lemma OfferedProvidersResolve(n: Network, p: WalletProvider, chainId: Option<string>)
    requires p in GetWalletProviders(Present(n))
    ensures Resolve(p, Present(n), chainId).Ok?
    ensures Resolve(p, Present(n), chainId).value.family == DeclaredFamily(n)
  {
    PromptedSelectionsResolve(n, p);
  }

  /** On the "other" path the prompt offers the non-CDP EVM providers, and each
      of them resolves to an EVM route once a chain id is entered. */
  lemma ChainIdSelectionsResolve(network: Nullish<Network>, p: WalletProvider, chainId: Option<string>)
    requires !network.Present? && Truthy(chainId)
    requires p in GetWalletProviders(network)
    ensures Resolve(p, network, chainId).Ok?
    ensures Resolve(p, network, chainId).value.family == EVM
  {
    ChainIdProvidersResolve(p);
  }

  /** A provider outside a network's family is refused as an invalid combination. */
  lemma CrossFamilyProviderRefused(n: Network, chainId: Option<string>)
    ensures DeclaredFamily(n) == EVM ==> Resolve(SolanaKeypair, Present(n), chainId) == Err(InvalidCombination)
    ensures DeclaredFamily(n) == SVM ==> Resolve(CDP, Present(n), chainId) == Err(InvalidCombination)
    ensures DeclaredFamily(n) == SVM ==> Resolve(Viem, Present(n), chainId) == Err(InvalidCombination)
  {
    RouteMapDomain(SolanaKeypair);
    RouteMapDomain(CDP);
    RouteMapDomain(Viem);
  }

  /** A chain id alone selects EVM, so the Solana keypair provider is refused
      there; an empty chain id counts as no chain id at all. */
  lemma ChainIdPathRefusals(p: WalletProvider)
    ensures Resolve(SolanaKeypair, Null, Some("1")) == Err(InvalidCombination)
    ensures Resolve(p, Null, Some("")) == Err(UnsupportedNetworkAndChainId)
    ensures Resolve(p, Undefined, None) == Err(UnsupportedNetworkAndChainId)
  {
    RouteMapDomain(SolanaKeypair);
  }
}

=== FILE: seqs.dfy ===
/** Sequence and string helpers mirroring the JavaScript built-ins the
    scaffolder relies on: `new Set(...)` iteration order, `Array.join`,
    spreading a string into characters, writing an iterable of strings,
    and `String.split`. */
module Seqs {

  predicate NoDuplicates<T(==)>(s: seq<T>) {
    forall i, j | 0 <= i < j < |s| :: s[i] != s[j]
  }

  /** The position of the first occurrence of `x` in `s`. */
  function FirstIndex<T(==)>(s: seq<T>, x: T): (k: nat)
    requires x in s
    ensures k < |s| && s[k] == x
    ensures forall i | 0 <= i < k :: s[i] != x
  {
    if s[0] == x then 0 else 1 + FirstIndex(s[1..], x)
  }

  /** Appending an element leaves the first occurrences of earlier elements where they were. */
  lemma FirstIndexSnoc<T>(s: seq<T>, y: T, x: T)
    requires x in s
    ensures FirstIndex(s + [y], x) == FirstIndex(s, x)
  {
    var k := FirstIndex(s, x);
    var t := s + [y];
    assert t[k] == x && forall i | 0 <= i < k :: t[i] != x;
    var k' := FirstIndex(t, x);
    assert k' <= k;
  }

  /** `[...new Set(s)]`: the elements of `s`, each once, in order of first occurrence. */
  function Dedupe<T(==,!new)>(s: seq<T>): (r: seq<T>)
    ensures NoDuplicates(r)
    ensures forall x :: x in r <==> x in s
    ensures |r| <= |s|
  {
    if |s| == 0 then []
    else
      var d := Dedupe(s[..|s| - 1]);
      if s[|s| - 1] in d then d else d + [s[|s| - 1]]
  }

  /** A `Set` iterates in insertion order: the deduplicated elements appear in
      the order of their first occurrences in the input. */
  lemma {:induction false} DedupeKeepsFirstOccurrenceOrder<T(!new)>(s: seq<T>)
    ensures forall i, j | 0 <= i < j < |Dedupe(s)| :: FirstIndex(s, Dedupe(s)[i]) < FirstIndex(s, Dedupe(s)[j])
  {
    if |s| > 0 {
      var init := s[..|s| - 1];
      var last := s[|s| - 1];
      assert s == init + [last];
      DedupeKeepsFirstOccurrenceOrder(init);
      forall x | x in init ensures FirstIndex(s, x) == FirstIndex(init, x) {
        FirstIndexSnoc(init, last, x);
      }
      var d := Dedupe(init);
      forall i | 0 <= i < |d| ensures FirstIndex(s, d[i]) == FirstIndex(init, d[i]) {
        assert d[i] in init;
      }
      if last in d {
        assert Dedupe(s) == d;
        forall i, j | 0 <= i < j < |d| ensures FirstIndex(s, d[i]) < FirstIndex(s, d[j]) {
          assert FirstIndex(init, d[i]) < FirstIndex(init, d[j]);
        }
      } else {
        assert Dedupe(s) == d + [last];
        assert FirstIndex(s, last) == |s| - 1;
      }
    }
  }

  /** Extending the input by one element extends the deduplicated sequence
      exactly when that element is new. */
  lemma DedupeSnoc<T(!new)>(s: seq<T>, x: T)
    ensures Dedupe(s + [x]) == if x in Dedupe(s) then Dedupe(s) else Dedupe(s) + [x]
  {
    assert (s + [x])[..|s|] == s;
  }

  /** Building a set from a duplicate-free sequence keeps that sequence as is. */
  lemma {:induction false} DedupeOfDistinct<T(!new)>(s: seq<T>)
    requires NoDuplicates(s)
    ensures Dedupe(s) == s
  {
    if |s| > 0 {
      var init := s[..|s| - 1];
      assert NoDuplicates(init);
      DedupeOfDistinct(init);
      assert s[|s| - 1] !in init;
      assert init + [s[|s| - 1]] == s;
    }
  }

  /** `xs.join(sep)`. */
  function Join(xs: seq<string>, sep: string): string {
    if |xs| == 0 then ""
    else if |xs| == 1 then xs[0]
    else xs[0] + sep + Join(xs[1..], sep)
  }

  /** Joining a head in front of a non-empty list puts one separator between them. */
  lemma JoinCons(x: string, xs: seq<string>, sep: string)
    requires |xs| > 0
    ensures Join([x] + xs, sep) == x + sep + Join(xs, sep)
  {
    assert ([x] + xs)[1..] == xs;
  }

  /** Joining two non-empty lists puts one separator between their joins. */
  lemma {:induction false} JoinAppend(a: seq<string>, b: seq<string>, sep: string)
    requires |a| > 0 && |b| > 0
    ensures Join(a + b, sep) == Join(a, sep) + sep + Join(b, sep)
  {
    if |a| == 1 {
      assert (a + b)[1..] == b;
    } else {
      assert (a + b)[1..] == a[1..] + b;
      JoinAppend(a[1..], b, sep);
    }
  }

  /** `[...s]`: a string spread into its one-character strings. Writing the
      spread writes the string itself. */
  function Chars(s: string): (r: seq<string>)
    ensures forall i | 0 <= i < |r| :: |r[i]| == 1
    ensures Concat(r) == s
  {
    if |s| == 0 then []
    else
      var r := [[s[0]]] + Chars(s[1..]);
      assert r[1..] == Chars(s[1..]);
      r
  }

  /** The bytes that writing an iterable of strings produces: the strings one after another. */
  function Concat(fragments: seq<string>): string {
    if |fragments| == 0 then "" else fragments[0] + Concat(fragments[1..])
  }

  lemma {:induction false} ConcatAppend(a: seq<string>, b: seq<string>)
    ensures Concat(a + b) == Concat(a) + Concat(b)
  {
    if |a| > 0 {
      assert (a + b)[1..] == a[1..] + b;
      ConcatAppend(a[1..], b);
    } else {
      assert a + b == b;
    }
  }

  /** `s.split(sep)` for a one-character separator. */
  function Split(s: string, sep: char): (r: seq<string>)
    ensures |r| > 0
  {
    if |s| == 0 then [""]
    else
      var rest := Split(s[1..], sep);
      if s[0] == sep then [""] + rest else [[s[0]] + rest[0]] + rest[1..]
  }

  /** A piece without the separator splits to itself. */
  lemma {:induction false} SplitPlain(a: string, sep: char)
    requires sep !in a
    ensures Split(a, sep) == [a]
  {
    if |a| > 0 {
      SplitPlain(a[1..], sep);
      assert [a[0]] + a[1..] == a;
    }
  }

  /** A piece without the separator, then the separator, is cut off as one element. */
  lemma {:induction false} SplitCons(a: string, sep: char, b: string)
    requires sep !in a
    ensures Split(a + [sep] + b, sep) == [a] + Split(b, sep)
  {
    if |a| == 0 {
      assert a + [sep] + b == [sep] + b;
      assert ([sep] + b)[1..] == b;
    } else {
      assert (a + [sep] + b)[1..] == a[1..] + [sep] + b;
      SplitCons(a[1..], sep, b);
      assert [a[0]] + a[1..] == a;
    }
  }

  /** Splitting a join of separator-free pieces gives the pieces back. */
  lemma {:induction false} SplitJoin(xs: seq<string>, sep: char)
    requires |xs| > 0
    requires forall i | 0 <= i < |xs| :: sep !in xs[i]
    ensures Split(Join(xs, [sep]), sep) == xs
  {
    if |xs| == 1 {
      SplitPlain(xs[0], sep);
    } else {
      SplitJoin(xs[1..], sep);
      SplitCons(xs[0], sep, Join(xs[1..], [sep]));
      assert [xs[0]] + xs[1..] == xs;
    }
  }
}

=== FILE: types.dfy ===
/** The enumerations of the scaffolder: supported networks, the two network
    families, the wallet providers, and the shape of a route configuration. */
module Types {

  datatype Network =
    | EthereumMainnet | EthereumSepolia
    | PolygonMainnet | PolygonMumbai
    | BaseMainnet | BaseSepolia
    | ArbitrumMainnet | ArbitrumSepolia
    | OptimismMainnet | OptimismSepolia
    | SolanaMainnet | SolanaDevnet | SolanaTestnet

  /** The family a network belongs to: EVM-compatible chains or Solana. */
  datatype Family = EVM | SVM

  datatype WalletProvider = CDP | Viem | Privy | SolanaKeypair

  /** The string literal that names each network. */
  function NetworkId(n: Network): string {
    match n
    case EthereumMainnet => "ethereum-mainnet"
    case EthereumSepolia => "ethereum-sepolia"
    case PolygonMainnet => "polygon-mainnet"
    case PolygonMumbai => "polygon-mumbai"
    case BaseMainnet => "base-mainnet"
    case BaseSepolia => "base-sepolia"
    case ArbitrumMainnet => "arbitrum-mainnet"
    case ArbitrumSepolia => "arbitrum-sepolia"
    case OptimismMainnet => "optimism-mainnet"
    case OptimismSepolia => "optimism-sepolia"
    case SolanaMainnet => "solana-mainnet"
    case SolanaDevnet => "solana-devnet"
    case SolanaTestnet => "solana-testnet"
  }

  /** The string union a network literal is declared in: `EVMNetwork` or `SVMNetwork`. */
  function DeclaredFamily(n: Network): Family {
    match n
    case SolanaMainnet | SolanaDevnet | SolanaTestnet => SVM
    case _ => EVM
  }

  /** Distinct networks have distinct names, so testing a name for membership
      in a set of names is testing the network itself. */
  lemma NetworkIdInjective(a: Network, b: Network)
    requires NetworkId(a) == NetworkId(b)
    ensures a == b
  {
  }

  /** The `.env.local` requirements of one route: comment lines for the header,
      the required keys and the optional keys. */
  datatype EnvTemplate = EnvTemplate(topComments: seq<string>, required: seq<string>, optional: seq<string>)

  /** A route configuration. `apiRoute` is the template's path below the agent
      route directory, kept as its '/'-separated segments. */
  datatype RouteConfiguration = RouteConfiguration(env: EnvTemplate, apiRoute: seq<string>)
}

=== FILE: wrappers.dfy ===
/** Optional values and results with an error channel, used wherever the
    scaffolder can come back with `undefined` or throw. */
module Wrappers {

  /** A value that may be absent (`undefined` in the scaffolder). */
  datatype Option<+T> = None | Some(value: T)

  /** The outcome of an operation that either produces a value or fails. */
  datatype Result<+T, +E> = Ok(value: T) | Err(error: E)
}
